=== FILE: README.md ===
# Tutor chat message handler, modelled in Dafny

This project models the in-memory routing core of a tutor/student websocket chat:
the `MessageHandler` of the backend and the `Profile` bean it works on.

The handler keeps three pieces of state:

- `ONLINEPROFILES`, the ordered list of connected profiles. It may hold duplicates, because `addUser` only appends.
- `NOTGETTINGHELP`, the help backlog. It maps each student waiting for a tutor to the messages it sent meanwhile.
- the `assignedTutor` field of every profile. It is null (never assigned, or cleared on disconnect), `""` (released) or a tutor's username.

Every websocket send is recorded in an `outbox`. Each entry holds the username of the profile whose session receives it, and either a message or a binary frame.

Files:

- `wrappers.dfy`: `Option`.
- `strings.dfy`: `StringJoiner` joins, the first field of `String.split`, and Java's rendering of a null string as text.
- `entity.dfy`: `Message` as the datatype `Msg`, the send record, and the mutable `Profile` class with its setters.
- `directory.dfy`: the scans over the online list (first match, filter, usernames of a filter) and `List.remove(Object)`.
- `helpqueue.dfy`: the backlog summary `getNeedHelp` builds. It also proves that the summary's items do not depend on the hash map's traversal order.
- `dispatch.dfy`: the `switch` of `handleMessage` written as data, as written and with the missing `break`s restored.
- `model.dfy`:
  - the `MessageHandler` class, with `online`, `backlog` and `outbox` fields;
  - the handlers as methods with loops;
  - the lookups and builders as functions;
  - the send sequences each handler produces, as specification functions with lemmas about them.

Profiles are compared by reference, because `Profile` does not override `equals`. So the backlog is keyed by the `Profile` object.

The handler's invariant `Valid()` has three parts:

- Every online profile has a username, a message list and a tutor flag.
- No online tutor is called "Server".
- Every backlogged profile is online and has at least one message. The summary reads the first message of every backlog list.

Every operation keeps `Valid()`.

## Model

| member | source | states |
|---|---|---|
| Entity.Profile.constructor | backend/src/main/java/entity/Profile.java:31-32 | a new profile has every field unset |
| Entity.Profile.IsTutor | backend/src/main/java/model/MessageHandler.java:230 | `isTutor()`: the tutor flag is set and true |
| Entity.Profile.SetSession | backend/src/main/java/entity/Profile.java:38-40 | the session becomes the argument; no other field changes |
| Entity.Profile.SetTutor | backend/src/main/java/entity/Profile.java:46-48 | the tutor flag becomes the argument; no other field changes |
| Entity.Profile.SetAssignedTutor | backend/src/main/java/entity/Profile.java:54-56 | the assigned tutor becomes the argument, keeping null and "" distinct; no other field changes |
| Entity.Profile.SetBuf | backend/src/main/java/entity/Profile.java:62-64 | the buffer becomes the argument; no other field changes |
| Entity.Profile.SetUsername | backend/src/main/java/entity/Profile.java:70-72 | the username becomes the argument; no other field changes |
| Entity.Profile.SetMessages | backend/src/main/java/entity/Profile.java:78-80 | the message list becomes the argument; no other field changes |
| Strings.FirstField | backend/src/main/java/model/MessageHandler.java:150 | the target name of a take is the longest prefix of the content free of ':', and it stops at the first ':' |
| Strings.Join | backend/src/main/java/model/MessageHandler.java:215-220 | what a `StringJoiner(";")` yields after its `add`s; `Strings.SplitJoin` shows splitting undoes it |
| Strings.JavaString | backend/src/main/java/model/MessageHandler.java:172 | Java's `+` on a string that may be null: the string itself, or `null` |
| Strings.FirstFieldIsSplitHead | backend/src/main/java/model/MessageHandler.java:150 | that prefix is element 0 of splitting the content at ':' |
| Strings.SplitNoSeparator | backend/src/main/java/model/MessageHandler.java:215-217 | a text with no separator splits into itself alone |
| Strings.SplitAfterPiece | backend/src/main/java/model/MessageHandler.java:215-217 | splitting peels off a leading separator-free piece |
| Strings.SplitJoin | backend/src/main/java/model/MessageHandler.java:215-217 | splitting a ';'-join of separator-free items gives back the items |
| Strings.JoinLength | backend/src/main/java/model/MessageHandler.java:219 | a join of two or more items is longer than its first two items |
| Directory.FirstMeeting | backend/src/main/java/model/MessageHandler.java:268-274 | the index found is the first profile that passes the test, or the list length when none does |
| Directory.SelectMembers | backend/src/main/java/model/MessageHandler.java:257-263 | the filtered list holds exactly the profiles that pass the test |
| Directory.SelectCount | backend/src/main/java/model/MessageHandler.java:257-263 | a passing profile occurs in the filtered list as often as in the online list; a failing one never does |
| Directory.SelectFirst | backend/src/main/java/model/MessageHandler.java:88-93 | the passing profiles in order of first occurrence: no duplicates, no others, none missing |
| Directory.NamesOfSelect | backend/src/main/java/model/MessageHandler.java:233-239 | the names a roster collects are the usernames of the filtered profiles, in list order |
| Directory.IndexOf | backend/src/main/java/model/MessageHandler.java:96 | the first position of the element, or the length when it is absent |
| Directory.RemoveFirst | backend/src/main/java/model/MessageHandler.java:96 | `List.remove(Object)` takes out exactly the first occurrence, or nothing when the element is absent |
| HelpQueue.Entry | backend/src/main/java/model/MessageHandler.java:217 | the summary item of a backlogged profile holds a ':' |
| HelpQueue.Summary | backend/src/main/java/model/MessageHandler.java:211-223 | a `needHelp` from the server to nobody; content is the ';'-join of the items and is unset exactly when that join has length at most 1 |
| HelpQueue.SummaryOfNothing | backend/src/main/java/model/MessageHandler.java:219-221 | an empty backlog gives a summary without content |
| HelpQueue.SummaryOfOne | backend/src/main/java/model/MessageHandler.java:211-223 | a one-entry backlog is summarised as `username:content` |
| HelpQueue.SummaryReadsBack | backend/src/main/java/model/MessageHandler.java:215-220 | when no name or first content holds ';', splitting the content gives the items back in order |
| HelpQueue.EntriesPermute | backend/src/main/java/model/MessageHandler.java:215-218 | traversal orders that are permutations of each other give the same multiset of items |
| HelpQueue.EnumerationsPermute | backend/src/main/java/model/MessageHandler.java:24 | two duplicate-free enumerations of the same backlog keys are permutations of each other |
| HelpQueue.SummaryAnyOrder | backend/src/main/java/model/MessageHandler.java:211-223 | every traversal order of the hash map gives the same items and agrees on whether there is content |
| Dispatch.ThroughRoutes | backend/src/main/java/model/MessageHandler.java:35-55 | once control enters a case, the handlers of that case and the following ones run in order |
| Dispatch.ThroughBreaks | backend/src/main/java/model/MessageHandler.java:35-55 | control runs on until the first case that ends in `break`, or the last case |
| Dispatch.RunsNothing | backend/src/main/java/model/MessageHandler.java:35-55 | nothing runs exactly when no case label equals the command |
| Dispatch.RunsAt | backend/src/main/java/model/MessageHandler.java:35-55 | a command enters at the first case labelled with it |
| Dispatch.BreaksRunOne | backend/src/main/java/model/MessageHandler.java:35-55 | when every case ends in `break`, a command runs only its own case's handler |
| Dispatch.AsWrittenRuns | backend/src/main/java/model/MessageHandler.java:45-55 | as written, take, setTutor, connectedUsers and release fall through into every handler below them |
| Dispatch.IntendedRunsOne | backend/src/main/java/model/MessageHandler.java:35-55 | with every `break` in place, each command runs its single handler, and an unknown command runs none |
| Model.SendsToSelect | backend/src/main/java/model/MessageHandler.java:107-118 | a scan that sends to matching profiles makes exactly one send per match, the k-th to the k-th match |
| Model.SetTutor | backend/src/main/java/model/MessageHandler.java:193-200 | `setTutor(message, u)`: a `setTutor` from the server to `u` whose content is the sender of `message`; `Model.SetTutorTells` states what it tells its recipients |
| Model.RemoveTutor | backend/src/main/java/model/MessageHandler.java:202-209 | `removeTutor(u)`: a `setTutor` from the server to `u` with content ""; `Model.RemoveTutorTells` states what it tells its recipients |
| Model.ReleaseNote | backend/src/main/java/model/MessageHandler.java:171-173 | the note a release queues for the released profile: no command or ends, content "<tutor> couldn't resolve issue"; `Model.ReleaseNoteListed` states what tutors see of it |
| Model.ReleaseNoteListed | backend/src/main/java/model/MessageHandler.java:170-173 | the released profile's item in the `needHelp` summary (line 217) is `name:<tutor> couldn't resolve issue`, with a missing tutor written "null", and the summary of that entry has content |
| Model.NoticeTells | backend/src/main/java/model/MessageHandler.java:141-147 | a notice goes only to profiles called after its recipient; when those hold the assignment it carries, every recipient is told its own assignment |
| Model.SetTutorTells | backend/src/main/java/model/MessageHandler.java:155-162 | after a take assigns the taker by username, each `setTutor` notice goes from the server to such a profile and names the tutor it now holds |
| Model.RemoveTutorTells | backend/src/main/java/model/MessageHandler.java:166-169 | when every online profile with the username holds "", each `removeTutor` notice goes from the server to such a profile and carries that empty name. A release sets "" only on the first online profile with the name (lines 166-167), while the notice of line 169 reaches every online profile with it. So after a release the hypothesis holds only when no other online profile object shares the released profile's username |
| Model.Echo | backend/src/main/java/model/MessageHandler.java:181-183 | the help request re-addressed to its sender as a `message`; the backlog keeps this same re-addressed form (`Model.MessageHandler.QueueRequest`) |
| Model.Deliver | backend/src/main/java/model/MessageHandler.java:186-188 | one send per listed tutor, the k-th to the k-th tutor |
| Model.Replay | backend/src/main/java/model/MessageHandler.java:151-153 | one send per message, in stored order, all to the same profile |
| Model.ReplayStep | backend/src/main/java/model/MessageHandler.java:151-153 | replaying one more message appends one send |
| Model.NoticesSelectFirst | backend/src/main/java/model/MessageHandler.java:88-93 | the disconnect loop sends exactly one `removeTutor` per tutored profile, at its first occurrence in the online list |
| Model.Roster | backend/src/main/java/model/MessageHandler.java:226-240 | the `connectedUsers` message `getConnectedToTutor` builds for one tutor; `Model.RosterLists` states what it lists |
| Model.RosterLists | backend/src/main/java/model/MessageHandler.java:225-244 | a roster is a `connectedUsers` from the server to the tutor, listing in order exactly the profiles assigned to that tutor |
| Model.RostersAt | backend/src/main/java/model/MessageHandler.java:229-242 | one roster per online tutor, in online-list order |
| Model.RequeueAll | backend/src/main/java/model/MessageHandler.java:88-93 | after the disconnect loop the backlog gains every profile the departing tutor tutored, each with its own messages, and keeps the rest |
| Model.MessageHandler.constructor | backend/src/main/java/model/MessageHandler.java:23-24 | nobody online, an empty backlog, nothing sent |
| Model.MessageHandler.GetUser | backend/src/main/java/model/MessageHandler.java:267-276 | nobody for "Server"; otherwise the first online profile with that username, or nobody when there is none |
| Model.MessageHandler.GetUserBySession | backend/src/main/java/model/MessageHandler.java:278-285 | the first online profile on the session, or nobody when there is none |
| Model.MessageHandler.GetTutors | backend/src/main/java/model/MessageHandler.java:257-263 | exactly the online tutors |
| Model.MessageHandler.BacklogOrder | backend/src/main/java/model/MessageHandler.java:216 | a duplicate-free enumeration of the backlog's keys |
| Model.MessageHandler.GetNeedHelp | backend/src/main/java/model/MessageHandler.java:211-223 | a `needHelp` from the server; no content for an empty backlog; content for two or more entries, and then it is the ';'-join of the items |
| Model.MessageHandler.GetNeedHelpUnset | backend/src/main/java/model/MessageHandler.java:219-221 | the content is unset exactly when the join has length at most 1: for an empty backlog or a single item ":" |
| Model.MessageHandler.Departing | backend/src/main/java/model/MessageHandler.java:95-96 | the departing profile is online and on the session |
| Model.MessageHandler.UpdateUser | backend/src/main/java/model/MessageHandler.java:246-255 | changes nothing; returns nobody when nobody is online, else the argument when the last online profile has its username, and that last profile otherwise |
| Model.MessageHandler.SendMessage | backend/src/main/java/model/MessageHandler.java:107-118 | no send without a recipient; else one send to each online profile named by either end, in list order; no other change |
| Model.MessageHandler.SendSetTutorMessage | backend/src/main/java/model/MessageHandler.java:141-147 | one send to each online profile called after the recipient; no other change |
| Model.MessageHandler.SendFileMessage | backend/src/main/java/model/MessageHandler.java:126-139 | no send without a recipient; else the sender's buffer and a `file` message to the recipient, then both to the sender with the message readdressed; no other change |
| Model.MessageHandler.SendConnectedUsers | backend/src/main/java/model/MessageHandler.java:49-50 | the message goes to the profile it is addressed to; no other change |
| Model.MessageHandler.Broadcast | backend/src/main/java/model/MessageHandler.java:186-188 | the summary to each tutor in order; no other change |
| Model.MessageHandler.BroadcastNeedHelp | backend/src/main/java/model/MessageHandler.java:186-188 | the backlog summary to every online tutor in list order; no other change |
| Model.MessageHandler.QueueRequest | backend/src/main/java/model/MessageHandler.java:179-185 | a student's request is appended to its backlog list, which is created if absent, and echoed to it as a `message`; the backlog is unchanged for the server or a tutor |
| Model.MessageHandler.SendNeedHelpMessage | backend/src/main/java/model/MessageHandler.java:178-189 | the request is queued and echoed for a student, then every tutor gets the summary of the new backlog |
| Model.MessageHandler.Tutored | backend/src/main/java/model/MessageHandler.java:231-240 | the usernames of the online profiles assigned to the tutor, in list order |
| Model.MessageHandler.SendRoster | backend/src/main/java/model/MessageHandler.java:229-242 | the i-th online profile, when it is a tutor, gets its roster; no other change |
| Model.MessageHandler.GetConnectedToTutor | backend/src/main/java/model/MessageHandler.java:225-244 | every online tutor gets its roster, in list order; no other change |
| Model.MessageHandler.ReplayTo | backend/src/main/java/model/MessageHandler.java:151-153 | each message, in order, to the named profile; no other change |
| Model.MessageHandler.AssignTutor | backend/src/main/java/model/MessageHandler.java:155-159 | every online profile with the username gets the tutor; every other profile keeps its tutor |
| Model.MessageHandler.TakeOver | backend/src/main/java/model/MessageHandler.java:154-159 | the target leaves the backlog, and the assignment goes to the profiles with the target's username alone |
| Model.MessageHandler.RostersThenSetTutor | backend/src/main/java/model/MessageHandler.java:161-162 | the rosters, then the `setTutor` notice; no other change |
| Model.MessageHandler.AnnounceTake | backend/src/main/java/model/MessageHandler.java:160-162 | the summary, the rosters, then `setTutor` to the taken profile; no other change |
| Model.MessageHandler.SendTakeMessage | backend/src/main/java/model/MessageHandler.java:149-163 | the taker gets the target's backlog in stored order; the target leaves the backlog; the profiles with its username get the taker as tutor and no other tutor changes; then the summary, the rosters and `setTutor` |
| Model.MessageHandler.RostersThenHelp | backend/src/main/java/model/MessageHandler.java:174-175 | the rosters, then the summary; no other change |
| Model.MessageHandler.HelpThenRosters | backend/src/main/java/model/MessageHandler.java:97-98 | the summary, then the rosters; no other change |
| Model.MessageHandler.SendReleaseMessage | backend/src/main/java/model/MessageHandler.java:165-176 | the named profile's tutor becomes "" (not null); it gets `setTutor` with content ""; its backlog becomes the single note "<from> couldn't resolve issue"; then the rosters and the summary |
| Model.MessageHandler.Release | backend/src/main/java/model/MessageHandler.java:166-175 | the same effect, stated for the released profile itself |
| Model.MessageHandler.Unassign | backend/src/main/java/model/MessageHandler.java:167-169 | the tutor becomes "" and the `removeTutor` notice goes out; `updateUser` changes nothing |
| Model.MessageHandler.RequeueReleased | backend/src/main/java/model/MessageHandler.java:170-175 | the note becomes the profile's only backlog message; then the rosters and the summary; no profile changes |
| Model.MessageHandler.AddUser | backend/src/main/java/model/MessageHandler.java:66-80 | the profile is appended to the online list and sent its stored messages in order, then every tutor gets the summary |
| Model.MessageHandler.ReleaseStudents | backend/src/main/java/model/MessageHandler.java:88-94 | every profile tutored by the name loses its tutor (null), re-enters the backlog with its own messages and gets `removeTutor`; other tutors unchanged |
| Model.MessageHandler.ReleaseStep | backend/src/main/java/model/MessageHandler.java:89-93 | one pass of that loop on one profile |
| Model.MessageHandler.Leave | backend/src/main/java/model/MessageHandler.java:95-96 | the profile leaves the backlog and its first place in the online list |
| Model.MessageHandler.Depart | backend/src/main/java/model/MessageHandler.java:87-96 | the loop and the removals; afterwards no online profile is assigned to the departing username |
| Model.MessageHandler.DisconnectHandler | backend/src/main/java/model/MessageHandler.java:87-99 | the departing profile's students are cleared, requeued and notified; it leaves the backlog and its first place online; no remaining profile is assigned to it; then the summary and the rosters |
| Model.MessageHandler.HandleMessage | backend/src/main/java/model/MessageHandler.java:34-56 | runs exactly the handler its command selects, with that handler's state changes and sends; an unknown command and `webNoti` change nothing here |
| Model.MessageHandler.HandleAssignment | backend/src/main/java/model/MessageHandler.java:45-52 | the take and release cases, with the full effect of their handlers |
| Model.MessageHandler.HandleSend | backend/src/main/java/model/MessageHandler.java:36-50 | the cases that only send (`message`, `file`, `setTutor`, `connectedUsers`, and `webNoti` or an unknown command, which send nothing): each with its handler's sends; the backlog and every profile stay as they are |

## Left out

- Persistence through `UserFacade` is not modelled:
  - `sendMessage` stores the message in the stored profile of every online profile named by either end, once per matching entry of the online list;
  - `sendWebNotiMessage` stores the push token.
  - Both are calls into a database layer. The `webNoti` case therefore changes nothing in this model.
- The push notifications `addUser` sends when a tutor arrives are not modelled. `PushNotifier` is a foreign call.
- The websocket transport is not modelled: encoding, `IOException` and `EncodeException`. A send is recorded by the recipient's username. Every online profile is taken to have an open session.
- Concurrency is not modelled. The concurrent list and map are used here as a sequential list and map.
- The traversal order of the backlog hash map is unspecified, and the model fixes it as the order of the keys in the online list. `HelpQueue.SummaryAnyOrder` shows that every order gives the same items.
- Null dereferences and other exceptions are preconditions, not modelled behaviour:
  - a null command;
  - a missing target of a take or release;
  - a take on a target without a backlog entry;
  - a take whose content is made only of ':' (it splits into an empty array);
  - a disconnect with nobody on the session (`NOTGETTINGHELP.remove(null)` throws);
  - a backlog list left empty for `getNeedHelp`;
  - a `file` message with a recipient whose sender is unset, whose ends are not both online by name, or whose sender has no buffer (`FileReady`; lines 133-137 would throw);
  - a `take` whose sender is unset or not online (`TakeReady`; line 152 would throw);
  - a `needHelp` whose sender is unset, or is offline and not "Server" (`NeedHelpReady`; line 179 would throw);
  - a `connectedUsers` message whose addressee is not online (`Dispatchable`; line 50 would throw).
- Every recursive `handleMessage` call runs the handler its command selects with the `break`s restored (see Findings). For most of them this is also what the code as written does. The `needHelp` dispatches at lines 79, 97, 160 and 175 enter the last case, and the `message` dispatch at line 184 enters a case that ends in `break`. Only the `setTutor` dispatch at line 162, the `removeTutor` dispatch at line 169 and the `connectedUsers` dispatches at line 241 fall through. As written, those run the later handlers too, up to a null dereference at line 167.
- Backlog lists are copied by value. `disconnectHandler` puts the profile's own message list object into the backlog, so a later help request appended to that entry also lengthens the profile's list. That aliasing is not modelled.
- `getNeedHelp` is rebuilt for each tutor in the loop of `sendNeedHelpMessage`. It is built once here, because nothing it reads changes in between.
- The getters of `Profile` are not separate members, because the model reads the fields directly. `toString`, `serialVersionUID` and the persistence annotations are not behaviour.
- `isTutor()` and `getToken()` are called by the handler, but the `Profile.java` of this repository defines neither. `Profile.IsTutor` is read as the tutor flag being set and true, and the token is a plain field.
- Model.MessageHandler.AddUser: requires the new profile to have a username, a message list and a tutor flag, and a tutor not to be called "Server". The message list is needed by `addUser` itself: the loop at line 69 would throw on a null list. The username, the tutor flag and the rule that no tutor is called "Server" are needed only by later scans of the online list. `getUser` and `getConnectedToTutor` dereference the username, the roster loop reads the tutor flag, and a roster for a tutor called "Server" dereferences the null `getUser("Server")`.
- Model.MessageHandler.GetUserBySession: a profile without a session is skipped, where Java's `getSession().equals` would throw. Online profiles are taken to have a session.
- Model.MessageHandler.HandleMessage: states the corrected dispatch, not the fall-through as written. The as-written run of each command is stated by `Dispatch.AsWrittenRuns`.

## Findings

| source | as written | input that shows it | evidently intended | confidence | as-written member | corrected member |
|---|---|---|---|---|---|---|
| backend/src/main/java/model/MessageHandler.java:45-55 | the cases `take`, `setTutor`, `connectedUsers` and `release` have no `break`, so control falls into every case below | a message with command `take` enters the `take` case, and control runs on through the `setTutor`, `connectedUsers`, `release` and `needHelp` cases; these routes describe the switch's control flow only. In a run the program stops earlier. `getConnectedToTutor` (lines 98, 161, 174) dispatches each online tutor's roster as a `connectedUsers` message, which falls into `sendReleaseMessage`. An empty or multi-name roster makes `getUser` (lines 267-276) return null, and line 167 throws. A one-name roster first releases that student. Its `removeTutor` notice (line 169) then falls into the release case with content "", and line 167 throws there. Every `release` reaches that notice as well. So as written every release, and every take or disconnect while a tutor is online, ends in a NullPointerException at line 167 (assuming no profile is called "") | every case ends in `break`, so `take` runs `sendTakeMessage` alone | not executed | Dispatch.AsWrittenRuns | Dispatch.IntendedRunsOne |

=== FILE: directory.dfy ===
/**
 * Lookups over the ordered list of online profiles: the scans the message
 * handler runs over `ONLINEPROFILES`, and `List.remove(Object)`.
 */
module Directory {
  import opened Wrappers
  import opened Entity

  /** The test a scan of the online list applies to each profile. */
  datatype Criterion =
    | Tutor                                        // isTutor()
    | AssignedTo(tutor: string)                    // assignedTutor != null && assignedTutor.equals(tutor)
    | Named(a: Option<string>, b: Option<string>)  // username.equals(a) || username.equals(b)
    | WithSession(s: SessionId)                    // getSession().equals(s)
    | Among(keys: set<Profile>)                    // a key of the help backlog

  /** Whether `p` passes `c`; `equals(null)` is false, as `Some(_) == None` is. */
  predicate Meets(p: Profile, c: Criterion)
    reads p
  {
    match c
    case Tutor => p.IsTutor()
    case AssignedTo(t) => p.assignedTutor == Some(t)
    case Named(a, b) => p.username.Some? && (p.username == a || p.username == b)
    case WithSession(s) => p.session == Some(s)
    case Among(keys) => p in keys
  }

  ghost predicate NoDup<T>(s: seq<T>)
  {
    forall i, j | 0 <= i < j < |s| :: s[i] != s[j]
  }

  /** The index of the first profile passing `c`, or `|ps|` when none does. */
  function FirstMeeting(ps: seq<Profile>, c: Criterion): (i: nat)
    reads set p | p in ps
    ensures i <= |ps|
    ensures i < |ps| ==> Meets(ps[i], c)
    ensures forall j | 0 <= j < i :: !Meets(ps[j], c)
  {
    if ps == [] then 0
    else if Meets(ps[0], c) then 0
    else 1 + FirstMeeting(ps[1..], c)
  }

  /**
   * The profiles of `ps` that pass `c`, in list order, each as often as it
   * occurs in `ps`.
   */
  function Select(ps: seq<Profile>, c: Criterion): seq<Profile>
    reads set p | p in ps
    decreases |ps|
  {
    if ps == [] then []
    else
      var init, last := ps[..|ps| - 1], ps[|ps| - 1];
      assert ps == init + [last];
      Select(init, c) + (if Meets(last, c) then [last] else [])
  }

  /** The selection holds exactly the profiles of `ps` that pass `c`. */
  lemma {:induction false} SelectMembers(ps: seq<Profile>, c: Criterion)
    ensures forall p | p in Select(ps, c) :: p in ps && Meets(p, c)
    ensures forall p | p in ps && Meets(p, c) :: p in Select(ps, c)
    decreases |ps|
  {
    if ps != [] {
      var init, last := ps[..|ps| - 1], ps[|ps| - 1];
      assert ps == init + [last];
      SelectMembers(init, c);
    }
  }

  /** A profile occurs in the selection as often as in `ps` when it passes `c`, and never otherwise. */
  lemma {:induction false} SelectCount(ps: seq<Profile>, c: Criterion, p: Profile)
    ensures multiset(Select(ps, c))[p] == if Meets(p, c) then multiset(ps)[p] else 0
    decreases |ps|
  {
    if ps != [] {
      var init, last := ps[..|ps| - 1], ps[|ps| - 1];
      assert ps == init + [last];
      SelectCount(init, c, p);
    }
  }

  lemma SelectStep(ps: seq<Profile>, i: nat, c: Criterion)
    requires i < |ps|
    ensures Select(ps[..i + 1], c) == Select(ps[..i], c) + (if Meets(ps[i], c) then [ps[i]] else [])
  {
    assert ps[..i + 1][..i] == ps[..i];
  }

  /**
   * The profiles of `ps` that pass `c`, in the order of their first
   * occurrence, each once.
   */
  function SelectFirst(ps: seq<Profile>, c: Criterion): (r: seq<Profile>)
    reads set p | p in ps
    ensures NoDup(r)
    ensures forall p | p in r :: p in ps && Meets(p, c)
    ensures forall p | p in ps && Meets(p, c) :: p in r
    decreases |ps|
  {
    if ps == [] then []
    else
      var init, last := ps[..|ps| - 1], ps[|ps| - 1];
      assert ps == init + [last];
      SelectFirst(init, c) + (if Meets(last, c) && last !in init then [last] else [])
  }

  lemma SelectFirstStep(ps: seq<Profile>, i: nat, c: Criterion)
    requires i < |ps|
    ensures SelectFirst(ps[..i + 1], c)
         == SelectFirst(ps[..i], c) + (if Meets(ps[i], c) && ps[i] !in ps[..i] then [ps[i]] else [])
  {
    assert ps[..i + 1][..i] == ps[..i];
  }

  /** The usernames of `ps`, in order. */
  function Names(ps: seq<Profile>): (r: seq<string>)
    reads set p | p in ps
    requires forall p | p in ps :: p.username.Some?
    ensures |r| == |ps|
    decreases |ps|
  {
    if ps == [] then []
    else Names(ps[..|ps| - 1]) + [ps[|ps| - 1].username.value]
  }

  lemma NamesStep(ps: seq<Profile>, p: Profile)
    requires forall q | q in ps :: q.username.Some?
    requires p.username.Some?
    ensures Names(ps + [p]) == Names(ps) + [p.username.value]
  {
    assert (ps + [p])[..|ps|] == ps;
  }

  /** The usernames of the profiles among the first `n` of `ps` that pass `c`, in list order. */
  function NamesOf(ps: seq<Profile>, n: nat, c: Criterion): (r: seq<string>)
    reads set p | p in ps
    requires n <= |ps|
    requires forall p | p in ps :: p.username.Some?
  {
    if n == 0 then []
    else NamesOf(ps, n - 1, c) + (if Meets(ps[n - 1], c) then [ps[n - 1].username.value] else [])
  }

  /** `NamesOf` lists exactly the usernames of the selection, in order. */
  lemma {:induction false} NamesOfSelect(ps: seq<Profile>, n: nat, c: Criterion)
    requires n <= |ps|
    requires forall p | p in ps :: p.username.Some?
    ensures var sel := Select(ps[..n], c);
      (forall p | p in sel :: p in ps[..n] && Meets(p, c)) && NamesOf(ps, n, c) == Names(sel)
  {
    SelectMembers(ps[..n], c);
    if n > 0 {
      NamesOfSelect(ps, n - 1, c);
      SelectStep(ps, n - 1, c);
      var sel := Select(ps[..n - 1], c);
      if Meets(ps[n - 1], c) {
        NamesStep(sel, ps[n - 1]);
      } else {
        assert sel + [] == sel;
      }
    }
  }

  /** The position of the first `x` in `s`, or `|s|`. */
  function IndexOf<T(==)>(s: seq<T>, x: T): (i: nat)
    ensures i <= |s|
    ensures i < |s| ==> s[i] == x
    ensures x !in s[..i]
  {
    if s == [] then 0
    else if s[0] == x then 0
    else
      var i := 1 + IndexOf(s[1..], x);
      assert s[..i] == [s[0]] + s[1..][..i - 1];
      i
  }

  /** `List.remove(Object)`: drops the first occurrence of `x`, if any. */
  function RemoveFirst<T(==)>(s: seq<T>, x: T): (r: seq<T>)
    ensures x !in s ==> r == s
    ensures x in s ==> |r| == |s| - 1 && r == s[..IndexOf(s, x)] + s[IndexOf(s, x) + 1..]
    ensures multiset(r) == multiset(s) - multiset{x}
    ensures forall y | y in s && y != x :: y in r
    ensures forall y | y in r :: y in s
  {
    var i := IndexOf(s, x);
    if i == |s| then
      assert s[..i] == s;
      s
    else
      assert s == s[..i] + [x] + s[i + 1..];
      s[..i] + s[i + 1..]
  }
}

=== FILE: dispatch.dfy ===
/**
 * The `switch` of `handleMessage` as data: each `case` label, the handler
 * it runs, and whether it ends in `break`. Execution starts at the first
 * case whose label equals the command and runs on into the following cases
 * until one that breaks, as Java's `switch` does.
 */
module Dispatch {

  /** The handler a case runs. */
  datatype Route =
    | Chat          // sendMessage
    | WebNoti       // sendWebNotiMessage
    | File          // sendFileMessage
    | Take          // sendTakeMessage
    | AssignNotice  // sendSetTutorMessage
    | Roster        // the message itself to the session of its recipient
    | Release       // sendReleaseMessage
    | NeedHelp      // sendNeedHelpMessage

  datatype Case = Case(tag: string, route: Route, breaks: bool)

  /** The cases as `handleMessage` writes them: only the first three end in `break`. */
  const AsWritten: seq<Case> := [
    Case("message", Chat, true),
    Case("webNoti", WebNoti, true),
    Case("file", File, true),
    Case("take", Take, false),
    Case("setTutor", AssignNotice, false),
    Case("connectedUsers", Roster, false),
    Case("release", Release, false),
    Case("needHelp", NeedHelp, false)
  ]

  /** The same cases with a `break` after every handler. */
  const Intended: seq<Case> := [
    Case("message", Chat, true),
    Case("webNoti", WebNoti, true),
    Case("file", File, true),
    Case("take", Take, true),
    Case("setTutor", AssignNotice, true),
    Case("connectedUsers", Roster, true),
    Case("release", Release, true),
    Case("needHelp", NeedHelp, true)
  ]

  /**
   * The handlers run once control enters at `cases[i]`: that one, then the
   * following ones up to and including the first that breaks.
   */
  function Through(cases: seq<Case>, i: nat): seq<Route>
    requires i < |cases|
    decreases |cases| - i
  {
    if cases[i].breaks || i == |cases| - 1 then [cases[i].route]
    else [cases[i].route] + Through(cases, i + 1)
  }

  /** Entered at `cases[i]`, the handlers of the cases from `i` on run in order. */
  lemma {:induction false} ThroughRoutes(cases: seq<Case>, i: nat)
    requires i < |cases|
    ensures 1 <= |Through(cases, i)| <= |cases| - i
    ensures forall k | 0 <= k < |Through(cases, i)| :: Through(cases, i)[k] == cases[i + k].route
    decreases |cases| - i
  {
    if !cases[i].breaks && i < |cases| - 1 {
      ThroughRoutes(cases, i + 1);
    }
  }

  /** The run stops at the first `break`, and only there or at the last case. */
  lemma {:induction false} ThroughBreaks(cases: seq<Case>, i: nat)
    requires i < |cases|
    ensures var n := |Through(cases, i)|;
      && 1 <= n <= |cases| - i
      && (forall j | i <= j < i + n - 1 :: !cases[j].breaks)
      && (i + n < |cases| ==> cases[i + n - 1].breaks)
    decreases |cases| - i
  {
    if !cases[i].breaks && i < |cases| - 1 {
      ThroughBreaks(cases, i + 1);
    }
  }

  /** The handlers a `switch` over `cases[i..]` runs for `command`; none when no label matches. */
  function Runs(cases: seq<Case>, command: string, i: nat): (r: seq<Route>)
    requires i <= |cases|
    decreases |cases| - i
  {
    if i == |cases| then []
    else if cases[i].tag == command then Through(cases, i)
    else Runs(cases, command, i + 1)
  }

  /** The `switch` of `handleMessage` over `cases`. */
  function Switch(cases: seq<Case>, command: string): seq<Route>
  {
    Runs(cases, command, 0)
  }

  /** Nothing runs exactly when no label equals the command. */
  lemma {:induction false} RunsNothing(cases: seq<Case>, command: string, i: nat)
    requires i <= |cases|
    ensures Runs(cases, command, i) == [] <==> forall k | i <= k < |cases| :: cases[k].tag != command
    decreases |cases| - i
  {
    if i < |cases| && cases[i].tag != command {
      RunsNothing(cases, command, i + 1);
    }
  }

  /** A command enters at the first case labelled with it. */
  lemma {:induction false} RunsAt(cases: seq<Case>, i: nat, j: nat)
    requires i <= j < |cases|
    requires forall k | i <= k < j :: cases[k].tag != cases[j].tag
    ensures Runs(cases, cases[j].tag, i) == Through(cases, j)
    decreases j - i
  {
    if i < j {
      RunsAt(cases, i + 1, j);
    }
  }

  /** With a `break` after every case, a command runs the handler of the first case labelled with it, and no other. */
  lemma BreaksRunOne(cases: seq<Case>, j: nat)
    requires j < |cases|
    requires forall k | 0 <= k < |cases| :: cases[k].breaks
    requires forall k | 0 <= k < j :: cases[k].tag != cases[j].tag
    ensures Switch(cases, cases[j].tag) == [cases[j].route]
  {
    RunsAt(cases, 0, j);
  }

  /**
   * As written, a command with a `break`-less case also runs every handler
   * below its own: `take`, `setTutor`, `connectedUsers` and `release` each
   * end in `sendNeedHelpMessage`.
   */
  lemma AsWrittenRuns()
    ensures Switch(AsWritten, "message") == [Chat]
    ensures Switch(AsWritten, "webNoti") == [WebNoti]
    ensures Switch(AsWritten, "file") == [File]
    ensures Switch(AsWritten, "take") == [Take, AssignNotice, Roster, Release, NeedHelp]
    ensures Switch(AsWritten, "setTutor") == [AssignNotice, Roster, Release, NeedHelp]
    ensures Switch(AsWritten, "connectedUsers") == [Roster, Release, NeedHelp]
    ensures Switch(AsWritten, "release") == [Release, NeedHelp]
    ensures Switch(AsWritten, "needHelp") == [NeedHelp]
  {
  }

  /** With a `break` after every case, each command runs its own handler alone; any other command runs nothing. */
  lemma IntendedRunsOne(command: string)
    ensures Switch(Intended, "message") == [Chat]
    ensures Switch(Intended, "webNoti") == [WebNoti]
    ensures Switch(Intended, "file") == [File]
    ensures Switch(Intended, "take") == [Take]
    ensures Switch(Intended, "setTutor") == [AssignNotice]
    ensures Switch(Intended, "connectedUsers") == [Roster]
    ensures Switch(Intended, "release") == [Release]
    ensures Switch(Intended, "needHelp") == [NeedHelp]
    ensures (forall k | 0 <= k < |Intended| :: Intended[k].tag != command) ==> Switch(Intended, command) == []
  {
    RunsNothing(Intended, command, 0);
  }
}

=== FILE: entity.dfy ===
/**
 * The entities the message handler works on: the `Message` exchanged over a
 * websocket, the record of one send, and the mutable `Profile` bean.
 */
module Entity {
  import opened Wrappers

  type Byte = bv8

  /** A websocket session; only its identity matters here. */
  type SessionId = nat

  /** The synthetic sender of every message the server itself builds. */
  const Server := "Server"

  /**
   * A `Message`: each field is a nullable string, since `new Message()`
   * leaves all four null and the handler sets them one by one.
   */
  datatype Msg = Msg(
    command: Option<string>,
    fromProfile: Option<string>,
    toProfile: Option<string>,
    content: Option<string>)

  /** What one send carries: an encoded message object or a raw binary frame. */
  datatype Payload = Object(msg: Msg) | Binary(bytes: seq<Byte>)

  /** One send on the session of the online profile called `recipient`. */
  datatype Send = Send(recipient: string, payload: Payload)

  /**
   * A user's profile. Every field is nullable and starts out null; the
   * handler changes only `assignedTutor` of profiles it already holds.
   */
  class Profile {
    var username: Option<string>
    var messages: Option<seq<Msg>>
    var tutor: Option<bool>
    /** `None` never assigned or cleared, `Some("")` released, else the tutor's username. */
    var assignedTutor: Option<string>
    var buf: Option<seq<Byte>>
    var session: Option<SessionId>
    /** The push token read by the notifier. */
    var token: Option<string>

    constructor ()
      ensures username.None? && messages.None? && tutor.None? && assignedTutor.None?
      ensures buf.None? && session.None? && token.None?
    {
      username := None;
      messages := None;
      tutor := None;
      assignedTutor := None;
      buf := None;
      session := None;
      token := None;
    }

    /** `isTutor()`: the `tutor` flag is set and true. */
    predicate IsTutor()
      reads this
    {
      tutor == Some(true)
    }

    method SetSession(s: Option<SessionId>)
      modifies this`session
      ensures session == s
    {
      session := s;
    }

    method SetTutor(b: Option<bool>)
      modifies this`tutor
      ensures tutor == b
    {
      tutor := b;
    }

    method SetAssignedTutor(t: Option<string>)
      modifies this`assignedTutor
      ensures assignedTutor == t
    {
      assignedTutor := t;
    }

    method SetBuf(b: Option<seq<Byte>>)
      modifies this`buf
      ensures buf == b
    {
      buf := b;
    }

    method SetUsername(u: Option<string>)
      modifies this`username
      ensures username == u
    {
      username := u;
    }

    method SetMessages(l: Option<seq<Msg>>)
      modifies this`messages
      ensures messages == l
    {
      messages := l;
    }
  }
}

=== FILE: helpqueue.dfy ===
/**
 * The help backlog summary that `getNeedHelp` builds: one `username:content`
 * item per backlogged profile (content of the first stored message), joined
 * with ";". The backlog is a hash map whose traversal order is unspecified,
 * so the summary is built for a given `order` of its keys, and
 * `EntriesPermute` shows that every order yields the same items.
 */
module HelpQueue {
  import opened Wrappers
  import opened Strings
  import opened Entity
  import opened Directory

  type Backlog = map<Profile, seq<Msg>>

  /** Every backlog list holds a message: what `messages.get(0)` needs. */
  predicate Ready(backlog: Backlog)
  {
    forall p | p in backlog :: |backlog[p]| > 0
  }

  /** `order` lists the keys of `keys`, each exactly once. */
  ghost predicate Enumerates(order: seq<Profile>, keys: set<Profile>)
  {
    && NoDup(order)
    && (forall p | p in order :: p in keys)
    && (forall p | p in keys :: p in order)
  }

  /** What the summary needs of the profiles it lists. */
  predicate Listable(order: seq<Profile>, backlog: Backlog)
    reads set p | p in order
  {
    forall p | p in order :: p in backlog && |backlog[p]| > 0 && p.username.Some?
  }

  /** The item of one backlogged profile: `username + ":" + content of its first message`. */
  function Entry(p: Profile, backlog: Backlog): (e: string)
    reads p
    requires p in backlog && |backlog[p]| > 0 && p.username.Some?
    ensures ':' in e
  {
    var e := p.username.value + ":" + JavaString(backlog[p][0].content);
    assert e[|p.username.value|] == ':';
    e
  }

  /** The items of the profiles of `order`, in that order. */
  function Entries(order: seq<Profile>, backlog: Backlog): (items: seq<string>)
    reads set p | p in order
    requires Listable(order, backlog)
    ensures |items| == |order|
  {
    if order == [] then []
    else [Entry(order[0], backlog)] + Entries(order[1..], backlog)
  }

  /**
   * `getNeedHelp()` for a traversal `order` of the backlog: a `needHelp`
   * message from the server whose content is the joined items, left null
   * unless the joined string is longer than one character.
   */
  function Summary(order: seq<Profile>, backlog: Backlog): (m: Msg)
    reads set p | p in order
    requires Listable(order, backlog)
    ensures m.command == Some("needHelp") && m.fromProfile == Some(Server) && m.toProfile.None?
    ensures m.content.None? <==> order == [] || (|order| == 1 && Entry(order[0], backlog) == ":")
    ensures m.content.Some? ==> m.content.value == Join(Entries(order, backlog), ';')
  {
    var items := Entries(order, backlog);
    var joined := Join(items, ';');
    JoinLength(items, ';');
    Msg(Some("needHelp"), Some(Server), None, if |joined| > 1 then Some(joined) else None)
  }

  /** The summary of an empty backlog has no content. */
  lemma SummaryOfNothing(backlog: Backlog)
    ensures Summary([], backlog).content.None?
  {
  }

  /** A one-entry backlog is summarised as `username:content`. */
  lemma SummaryOfOne(p: Profile, m: Msg, name: string, text: string)
    requires p.username == Some(name) && m.content == Some(text)
    requires name != "" || text != ""
    ensures Summary([p], map[p := [m]]).content == Some(name + ":" + text)
  {
    var e := Entry(p, map[p := [m]]);
    assert e == name + ":" + text;
    assert |e| > 1;
    assert Entries([p], map[p := [m]]) == [e];
  }

  /**
   * The summary can be read back: when no username and no first content
   * holds ';', splitting the content at ';' gives the items in order.
   */
  lemma SummaryReadsBack(order: seq<Profile>, backlog: Backlog)
    requires Listable(order, backlog)
    requires forall p | p in order :: ';' !in p.username.value && ';' !in JavaString(backlog[p][0].content)
    requires Summary(order, backlog).content.Some?
    ensures Split(Summary(order, backlog).content.value, ';') == Entries(order, backlog)
  {
    var items := Entries(order, backlog);
    forall i | 0 <= i < |items|
      ensures ';' !in items[i]
    {
      var p := order[i];
      EntriesAt(order, i, backlog);
      assert items[i] == p.username.value + ":" + JavaString(backlog[p][0].content);
    }
    SplitJoin(items, ';');
  }

  lemma {:induction false} EntriesAt(order: seq<Profile>, i: nat, backlog: Backlog)
    requires Listable(order, backlog) && i < |order|
    ensures Entries(order, backlog)[i] == Entry(order[i], backlog)
    decreases i
  {
    if i > 0 {
      EntriesAt(order[1..], i - 1, backlog);
    }
  }

  lemma {:induction false} EntriesAppend(a: seq<Profile>, b: seq<Profile>, backlog: Backlog)
    requires Listable(a, backlog) && Listable(b, backlog)
    ensures Listable(a + b, backlog)
    ensures Entries(a + b, backlog) == Entries(a, backlog) + Entries(b, backlog)
    decreases |a|
  {
    if a == [] {
      assert a + b == b;
    } else {
      assert (a + b)[1..] == a[1..] + b;
      EntriesAppend(a[1..], b, backlog);
    }
  }

  /** Removing the same element from two permutations leaves permutations. */
  lemma PermuteTail<T>(o1: seq<T>, o2: seq<T>, k: nat)
    requires o1 != [] && k < |o2| && o2[k] == o1[0]
    requires multiset(o1) == multiset(o2)
    ensures multiset(o1[1..]) == multiset(o2[..k] + o2[k + 1..])
  {
    assert o1 == [o1[0]] + o1[1..];
    assert o2 == o2[..k] + [o2[k]] + o2[k + 1..];
    calc {
      multiset(o1[1..]);
      multiset(o1) - multiset{o1[0]};
      multiset(o2) - multiset{o2[k]};
      multiset(o2[..k]) + multiset(o2[k + 1..]);
    }
  }

  /** Taking one profile out of an order takes its item out of the items. */
  lemma EntriesWithout(o: seq<Profile>, k: nat, backlog: Backlog)
    requires Listable(o, backlog) && k < |o|
    ensures Listable(o[..k] + o[k + 1..], backlog)
    ensures multiset(Entries(o, backlog))
         == multiset(Entries(o[..k] + o[k + 1..], backlog)) + multiset{Entry(o[k], backlog)}
  {
    var front, back := o[..k], o[k + 1..];
    assert o == front + [o[k]] + back;
    EntriesAppend(front, [o[k]], backlog);
    EntriesAppend(front + [o[k]], back, backlog);
    EntriesAppend(front, back, backlog);
    var before, e, after := Entries(front, backlog), Entry(o[k], backlog), Entries(back, backlog);
    assert Entries([o[k]], backlog) == [e];
    assert Entries(o, backlog) == before + [e] + after;
    assert Entries(front + back, backlog) == before + after;
    assert multiset(before + [e] + after) == multiset(before) + multiset{e} + multiset(after);
  }

  /** Orders that are permutations of each other give the same items. */
  lemma {:induction false} EntriesPermute(o1: seq<Profile>, o2: seq<Profile>, backlog: Backlog)
    requires Listable(o1, backlog) && Listable(o2, backlog)
    requires multiset(o1) == multiset(o2)
    ensures multiset(Entries(o1, backlog)) == multiset(Entries(o2, backlog))
    decreases |o1|
  {
    if o1 != [] {
      assert o1[0] in multiset(o2);
      var k := IndexOf(o2, o1[0]);
      PermuteTail(o1, o2, k);
      EntriesWithout(o2, k, backlog);
      EntriesPermute(o1[1..], o2[..k] + o2[k + 1..], backlog);
      assert Entries(o1, backlog) == [Entry(o1[0], backlog)] + Entries(o1[1..], backlog);
    }
  }

  lemma {:induction false} NoDupCount(o: seq<Profile>, x: Profile)
    requires NoDup(o)
    ensures multiset(o)[x] == if x in o then 1 else 0
    decreases |o|
  {
    if o != [] {
      assert o == [o[0]] + o[1..];
      assert NoDup(o[1..]);
      NoDupCount(o[1..], x);
    }
  }

  /** Any two enumerations of the same keys are permutations of each other. */
  lemma EnumerationsPermute(o1: seq<Profile>, o2: seq<Profile>, keys: set<Profile>)
    requires Enumerates(o1, keys) && Enumerates(o2, keys)
    ensures multiset(o1) == multiset(o2)
  {
    forall x
      ensures multiset(o1)[x] == multiset(o2)[x]
    {
      NoDupCount(o1, x);
      NoDupCount(o2, x);
    }
  }

  /**
   * The summary does not depend on the traversal order beyond the order of
   * its items: any two enumerations of the backlog give the same multiset of
   * items, and content for one exactly when content for the other.
   */
  lemma SummaryAnyOrder(o1: seq<Profile>, o2: seq<Profile>, backlog: Backlog)
    requires Enumerates(o1, backlog.Keys) && Enumerates(o2, backlog.Keys)
    requires Listable(o1, backlog) && Listable(o2, backlog)
    ensures multiset(Entries(o1, backlog)) == multiset(Entries(o2, backlog))
    ensures Summary(o1, backlog).content.None? <==> Summary(o2, backlog).content.None?
  {
    EnumerationsPermute(o1, o2, backlog.Keys);
    EntriesPermute(o1, o2, backlog);
    assert |o1| == |multiset(o1)| == |multiset(o2)| == |o2|;
    if |o1| == 1 {
      assert o1[0] in o2;
    }
  }
}

=== FILE: model.dfy ===
/**
 * The message handler: the list of online profiles, the help backlog and
 * every websocket send. A send is recorded in `outbox` as the username of
 * the profile whose session receives it and what it carries.
 */
module Model {
  import opened Wrappers
  import opened Strings
  import opened Entity
  import opened Directory
  import opened HelpQueue
  import Dispatch

  /** `setTutor(message, u)`: tells the profile called `username` that the sender of `message` tutors it. */
  function SetTutor(message: Msg, username: Option<string>): Msg
  {
    Msg(Some("setTutor"), Some(Server), username, message.fromProfile)
  }

  /** `removeTutor(username)`: tells the profile called `username` that it has no tutor. */
  function RemoveTutor(username: Option<string>): Msg
  {
    Msg(Some("setTutor"), Some(Server), username, Some(""))
  }

  /** The message a release leaves as the only backlog message of the released profile. */
  function ReleaseNote(from: Option<string>): Msg
  {
    Msg(None, None, None, Some(JavaString(from) + " couldn't resolve issue"))
  }

  /**
   * What the tutors see of a released profile: its item in the `needHelp`
   * summary names it and the tutor who gave up, with a missing tutor
   * written "null".
   */
  lemma ReleaseNoteListed(p: Profile, backlog: Backlog, from: Option<string>)
    requires p.username.Some?
    ensures var queued := backlog[p := [ReleaseNote(from)]];
      && Listable([p], queued)
      && Entry(p, queued) == p.username.value + ":" + JavaString(from) + " couldn't resolve issue"
      && Summary([p], queued).content.Some?
  {
    var queued := backlog[p := [ReleaseNote(from)]];
    var e := Entry(p, queued);
    assert |e| > 1;
    assert Entries([p], queued) == [e];
  }

  /**
   * A help request after `sendNeedHelpMessage` re-addresses it to its sender
   * as a `message`. The backlog holds this same object, so it keeps the
   * re-addressed form.
   */
  function Echo(message: Msg): Msg
  {
    message.(toProfile := message.fromProfile, command := Some("message"))
  }

  /** One send of `payload` to each of the first `n` profiles of `ps` that passes `c`, in list order. */
  function SendsTo(ps: seq<Profile>, n: nat, c: Criterion, payload: Payload): (r: seq<Send>)
    reads set p | p in ps
    requires n <= |ps|
    requires forall p | p in ps :: p.username.Some?
  {
    if n == 0 then []
    else SendsTo(ps, n - 1, c, payload) + (if Meets(ps[n - 1], c) then [Send(ps[n - 1].username.value, payload)] else [])
  }

  /**
   * `SendsTo` makes exactly one send per selected profile: the `k`-th send
   * goes to the `k`-th profile that passes `c`.
   */
  lemma {:induction false} SendsToSelect(ps: seq<Profile>, n: nat, c: Criterion, payload: Payload)
    requires n <= |ps|
    requires forall p | p in ps :: p.username.Some?
    ensures |SendsTo(ps, n, c, payload)| == |Select(ps[..n], c)|
    ensures forall k | 0 <= k < |Select(ps[..n], c)| ::
      var q := Select(ps[..n], c)[k];
      q.username.Some? && SendsTo(ps, n, c, payload)[k] == Send(q.username.value, payload)
  {
    if n > 0 {
      SendsToSelect(ps, n - 1, c, payload);
      SelectStep(ps, n - 1, c);
      var before, chosen := SendsTo(ps, n - 1, c, payload), Select(ps[..n - 1], c);
      forall k | 0 <= k < |Select(ps[..n], c)|
        ensures var q := Select(ps[..n], c)[k];
          q.username.Some? && SendsTo(ps, n, c, payload)[k] == Send(q.username.value, payload)
      {
        if k < |chosen| {
          assert Select(ps[..n], c)[k] == chosen[k];
          assert SendsTo(ps, n, c, payload)[k] == before[k];
        }
      }
    }
  }

  /**
   * A notice sent by the scan of `sendSetTutorMessage` reaches only profiles
   * called after its recipient. When those profiles hold the assignment the
   * notice carries, every recipient is told its own assignment.
   */
  lemma NoticeTells(ps: seq<Profile>, notice: Msg, k: nat)
    requires forall p | p in ps :: p.username.Some?
    requires forall p | p in ps && p.username == notice.toProfile :: p.assignedTutor == notice.content
    requires k < |SendsTo(ps, |ps|, Named(notice.toProfile, notice.toProfile), Object(notice))|
    ensures var s := SendsTo(ps, |ps|, Named(notice.toProfile, notice.toProfile), Object(notice))[k];
      && s.payload == Object(notice)
      && exists p | p in ps :: p.username == Some(s.recipient) && p.username == notice.toProfile && p.assignedTutor == notice.content
  {
    var c := Named(notice.toProfile, notice.toProfile);
    SendsToSelect(ps, |ps|, c, Object(notice));
    assert ps[..|ps|] == ps;
    SelectMembers(ps, c);
    var q := Select(ps, c)[k];
    assert q in Select(ps, c);
  }

  /**
   * After a take has given every profile called `username` the taker as
   * tutor, each `setTutor` notice about it goes from the server to such a
   * profile and names exactly the tutor that profile now holds.
   */
  lemma SetTutorTells(ps: seq<Profile>, message: Msg, username: Option<string>, k: nat)
    requires forall p | p in ps :: p.username.Some?
    requires forall p | p in ps && p.username == username :: p.assignedTutor == message.fromProfile
    requires k < |SendsTo(ps, |ps|, Named(username, username), Object(SetTutor(message, username)))|
    ensures var s := SendsTo(ps, |ps|, Named(username, username), Object(SetTutor(message, username)))[k];
      && s.payload.Object? && s.payload.msg.command == Some("setTutor") && s.payload.msg.fromProfile == Some(Server)
      && exists p | p in ps :: p.username == Some(s.recipient) && p.username == username && p.assignedTutor == s.payload.msg.content
  {
    NoticeTells(ps, SetTutor(message, username), k);
  }

  /**
   * After a release has marked every profile called `username` released
   * (`""` as tutor), each `removeTutor` notice goes from the server to such a
   * profile and carries that empty tutor name.
   */
  lemma RemoveTutorTells(ps: seq<Profile>, username: Option<string>, k: nat)
    requires forall p | p in ps :: p.username.Some?
    requires forall p | p in ps && p.username == username :: p.assignedTutor == Some("")
    requires k < |SendsTo(ps, |ps|, Named(username, username), Object(RemoveTutor(username)))|
    ensures var s := SendsTo(ps, |ps|, Named(username, username), Object(RemoveTutor(username)))[k];
      && s.payload.Object? && s.payload.msg.command == Some("setTutor") && s.payload.msg.fromProfile == Some(Server)
      && s.payload.msg.content == Some("")
      && exists p | p in ps :: p.username == Some(s.recipient) && p.username == username && p.assignedTutor == Some("")
  {
    NoticeTells(ps, RemoveTutor(username), k);
  }

  /** One send of `payload` to each of the first `n` profiles of `ps`, in list order. */
  function Deliver(ps: seq<Profile>, n: nat, payload: Payload): (r: seq<Send>)
    reads set p | p in ps
    requires n <= |ps|
    requires forall p | p in ps :: p.username.Some?
    ensures |r| == n
    ensures forall k | 0 <= k < n :: r[k] == Send(ps[k].username.value, payload)
  {
    if n == 0 then [] else Deliver(ps, n - 1, payload) + [Send(ps[n - 1].username.value, payload)]
  }

  /** Each message of `msgs`, in order, sent to the profile called `name`. */
  function Replay(name: string, msgs: seq<Msg>): (r: seq<Send>)
    ensures |r| == |msgs|
    ensures forall k | 0 <= k < |msgs| :: r[k] == Send(name, Object(msgs[k]))
  {
    if msgs == [] then []
    else Replay(name, msgs[..|msgs| - 1]) + [Send(name, Object(msgs[|msgs| - 1]))]
  }

  lemma ReplayStep(name: string, msgs: seq<Msg>, i: nat)
    requires i < |msgs|
    ensures Replay(name, msgs[..i + 1]) == Replay(name, msgs[..i]) + [Send(name, Object(msgs[i]))]
  {
    assert msgs[..i + 1][..i] == msgs[..i];
  }

  /**
   * `removeTutor` sent, on its own session, to each of the first `n`
   * profiles of `ps` tutored by `name`, at its first occurrence only: a
   * later occurrence of the same profile has already been cleared.
   */
  function Notices(ps: seq<Profile>, n: nat, name: string): (r: seq<Send>)
    reads set p | p in ps
    requires n <= |ps|
    requires forall p | p in ps :: p.username.Some?
  {
    if n == 0 then []
    else
      var p := ps[n - 1];
      Notices(ps, n - 1, name)
        + (if p.assignedTutor == Some(name) && p !in ps[..n - 1] then [Notice(p)] else [])
  }

  /** The notice `removeTutor` sends to `p`. */
  function Notice(p: Profile): Send
    reads p
    requires p.username.Some?
  {
    Send(p.username.value, Object(RemoveTutor(p.username)))
  }

  /** Exactly one notice per profile tutored by `name`, in the order of first occurrence. */
  lemma {:induction false} NoticesSelectFirst(ps: seq<Profile>, n: nat, name: string)
    requires n <= |ps|
    requires forall p | p in ps :: p.username.Some?
    ensures |Notices(ps, n, name)| == |SelectFirst(ps[..n], AssignedTo(name))|
    ensures forall k | 0 <= k < |Notices(ps, n, name)| ::
      var p := SelectFirst(ps[..n], AssignedTo(name))[k];
      p.username.Some? && Notices(ps, n, name)[k] == Notice(p)
  {
    if n > 0 {
      NoticesSelectFirst(ps, n - 1, name);
      SelectFirstStep(ps, n - 1, AssignedTo(name));
      var p := ps[n - 1];
      NoticesAppend(Notices(ps, n - 1, name), SelectFirst(ps[..n - 1], AssignedTo(name)), p,
        p.assignedTutor == Some(name) && p !in ps[..n - 1]);
    }
  }

  /** Appending a profile to the selection and its notice to the notices keeps the two in step. */
  lemma NoticesAppend(notices: seq<Send>, chosen: seq<Profile>, p: Profile, added: bool)
    requires |notices| == |chosen| && p.username.Some?
    requires forall k | 0 <= k < |notices| :: chosen[k].username.Some? && notices[k] == Notice(chosen[k])
    ensures var after, sel := notices + (if added then [Notice(p)] else []), chosen + (if added then [p] else []);
      && |after| == |sel|
      && forall k | 0 <= k < |after| :: sel[k].username.Some? && after[k] == Notice(sel[k])
  {
  }

  /** The `connectedUsers` message for `tutor`: the usernames of the profiles of `all` it tutors. */
  function Roster(tutor: string, all: seq<Profile>): Msg
    reads set p | p in all
    requires forall p | p in all :: p.username.Some?
  {
    Msg(Some("connectedUsers"), Some(Server), Some(tutor), Some(Join(NamesOf(all, |all|, AssignedTo(tutor)), ';')))
  }

  /**
   * A roster is a `connectedUsers` message from the server to the tutor
   * whose content joins, in list order, the usernames of exactly the
   * profiles assigned to that tutor.
   */
  lemma RosterLists(tutor: string, all: seq<Profile>)
    requires forall p | p in all :: p.username.Some?
    ensures var m := Roster(tutor, all);
      && m.command == Some("connectedUsers") && m.fromProfile == Some(Server) && m.toProfile == Some(tutor)
      && (forall p | p in Select(all, AssignedTo(tutor)) :: p in all && p.assignedTutor == Some(tutor))
      && (forall p | p in all && p.assignedTutor == Some(tutor) :: p in Select(all, AssignedTo(tutor)))
      && m.content == Some(Join(Names(Select(all, AssignedTo(tutor))), ';'))
  {
    NamesOfSelect(all, |all|, AssignedTo(tutor));
    SelectMembers(all, AssignedTo(tutor));
    assert all[..|all|] == all;
  }

  /** One roster, listing from all of `ps`, to each tutor among the first `n` profiles of `ps`, in list order. */
  function Rosters(ps: seq<Profile>, n: nat): (r: seq<Send>)
    reads set p | p in ps
    requires n <= |ps|
    requires forall p | p in ps :: p.username.Some?
  {
    if n == 0 then []
    else
      var t := ps[n - 1];
      Rosters(ps, n - 1) + (if t.IsTutor() then [Send(t.username.value, Object(Roster(t.username.value, ps)))] else [])
  }

  /** The `k`-th roster goes to the `k`-th tutor, and there is one per tutor. */
  lemma {:induction false} RostersAt(ps: seq<Profile>, n: nat)
    requires n <= |ps|
    requires forall p | p in ps :: p.username.Some?
    ensures |Rosters(ps, n)| == |Select(ps[..n], Tutor)|
    ensures forall k | 0 <= k < |Select(ps[..n], Tutor)| ::
      var t := Select(ps[..n], Tutor)[k];
      t.username.Some? && Rosters(ps, n)[k] == Send(t.username.value, Object(Roster(t.username.value, ps)))
  {
    if n > 0 {
      RostersAt(ps, n - 1);
      SelectStep(ps, n - 1, Tutor);
      var before, chosen := Rosters(ps, n - 1), Select(ps[..n - 1], Tutor);
      forall k | 0 <= k < |Select(ps[..n], Tutor)|
        ensures var t := Select(ps[..n], Tutor)[k];
          t.username.Some? && Rosters(ps, n)[k] == Send(t.username.value, Object(Roster(t.username.value, ps)))
      {
        if k < |chosen| {
          assert Select(ps[..n], Tutor)[k] == chosen[k];
          assert Rosters(ps, n)[k] == before[k];
        }
      }
    }
  }

  /**
   * The backlog after the loop of `disconnectHandler` has visited the first
   * `n` profiles of `ps`: each profile tutored by `name` is put back with its
   * own message list, at its first occurrence (a later one has already been
   * cleared).
   */
  function Requeue(backlog: Backlog, ps: seq<Profile>, n: nat, name: string): Backlog
    reads set p | p in ps
    requires n <= |ps|
    requires forall p | p in ps :: p.messages.Some?
  {
    if n == 0 then backlog
    else
      var p := ps[n - 1];
      var b := Requeue(backlog, ps, n - 1, name);
      if p.assignedTutor == Some(name) && p !in ps[..n - 1] then b[p := p.messages.value] else b
  }

  /**
   * After the whole loop the backlog holds every profile of `ps` tutored by
   * `name`, with its own message list, and otherwise what it held before.
   */
  lemma {:induction false} RequeueAll(backlog: Backlog, ps: seq<Profile>, n: nat, name: string)
    requires n <= |ps|
    requires forall p | p in ps :: p.messages.Some?
    ensures forall q ::
      q in Requeue(backlog, ps, n, name) <==> q in backlog || (q in ps[..n] && q.assignedTutor == Some(name))
    ensures forall q | q in Requeue(backlog, ps, n, name) ::
      Requeue(backlog, ps, n, name)[q] == if q in ps[..n] && q.assignedTutor == Some(name) then q.messages.value else backlog[q]
  {
    if n > 0 {
      RequeueAll(backlog, ps, n - 1, name);
      assert ps[..n] == ps[..n - 1] + [ps[n - 1]];
    }
  }

  class MessageHandler {
    /** `ONLINEPROFILES`: connected profiles in order of connection; duplicates allowed. */
    var online: seq<Profile>
    /** `NOTGETTINGHELP`: each unhelped profile and the messages it sent meanwhile. */
    var backlog: Backlog
    /** Every send so far, oldest first. */
    var outbox: seq<Send>

    /**
     * Every online profile carries the fields the handler dereferences, and
     * no online tutor is called "Server" (for which `getUser` finds nobody).
     */
    ghost predicate Registered()
      reads this`online, set p | p in online
    {
      && (forall p | p in online :: p.username.Some? && p.messages.Some? && p.tutor.Some?)
      && (forall p | p in online && p.IsTutor() :: p.username != Some(Server))
    }

    /** The handler's invariant: online profiles are registered, and every backlogged profile is online with a message to summarise. */
    ghost predicate Valid()
      reads this`online, this`backlog, set p | p in online
    {
      && Registered()
      && (forall p | p in backlog :: p in online)
      && Ready(backlog)
    }

    constructor ()
      ensures Valid() && online == [] && backlog == map[] && outbox == []
    {
      online := [];
      backlog := map[];
      outbox := [];
    }

    /**
     * `getUser(String)`: nobody for "Server"; otherwise the first online
     * profile with that username, or nobody.
     */
    function GetUser(name: string): (r: Option<Profile>)
      reads this`online, set p | p in online
      ensures name == Server ==> r.None?
      ensures r.Some? ==> r.value in online && r.value.username == Some(name)
      ensures r.Some? ==> exists i | 0 <= i < |online| :: online[i] == r.value && forall j | 0 <= j < i :: online[j].username != Some(name)
      ensures r.None? && name != Server ==> forall p | p in online :: p.username != Some(name)
    {
      if name == Server then None
      else
        var i := FirstMeeting(online, Named(Some(name), Some(name)));
        if i < |online| then Some(online[i]) else None
    }

    /** `getUser(Session)`: the first online profile on that session, or nobody. */
    function GetUserBySession(s: SessionId): (r: Option<Profile>)
      reads this`online, set p | p in online
      ensures r.Some? ==> r.value in online && r.value.session == Some(s)
      ensures r.Some? ==> exists i | 0 <= i < |online| :: online[i] == r.value && forall j | 0 <= j < i :: online[j].session != Some(s)
      ensures r.None? ==> forall p | p in online :: p.session != Some(s)
    {
      var i := FirstMeeting(online, WithSession(s));
      if i < |online| then Some(online[i]) else None
    }

    /** `getTutors()`: the online tutors in list order, each as often as it is online. */
    function GetTutors(): (r: seq<Profile>)
      reads this`online, set p | p in online
      ensures forall p | p in r :: p in online && p.IsTutor()
      ensures forall p | p in online && p.IsTutor() :: p in r
    {
      SelectMembers(online, Tutor);
      Select(online, Tutor)
    }

    /** The traversal order of `NOTGETTINGHELP`, fixed here as the order the keys are online in. */
    function BacklogOrder(): (order: seq<Profile>)
      reads this`online, this`backlog, set p | p in online
      requires Valid()
      ensures Enumerates(order, backlog.Keys)
    {
      SelectFirst(online, Among(backlog.Keys))
    }

    /**
     * `getNeedHelp()`: a `needHelp` message from the server summarising the
     * backlog; it has no content when the backlog is empty, and has content
     * when two or more profiles are backlogged (`GetNeedHelpUnset` gives
     * the exact threshold).
     */
    function GetNeedHelp(): (m: Msg)
      reads this`online, this`backlog, set p | p in online
      requires Valid()
      ensures m.command == Some("needHelp") && m.fromProfile == Some(Server) && m.toProfile.None?
      ensures backlog == map[] ==> m.content.None?
      ensures m.content.Some? ==> Listable(BacklogOrder(), backlog) && m.content.value == Join(Entries(BacklogOrder(), backlog), ';')
      ensures (exists p, q | p in backlog && q in backlog :: p != q) ==> m.content.Some?
    {
      var order := BacklogOrder();
      assert order != [] ==> order[0] in backlog;
      Summary(order, backlog)
    }

    /**
     * The `length() > 1` test of `getNeedHelp()`: the summary has no content
     * exactly when the backlog is empty or its one item is ":".
     */
    lemma GetNeedHelpUnset()
      requires Valid()
      ensures GetNeedHelp().content.None? <==>
        backlog == map[] || (|BacklogOrder()| == 1 && Entry(BacklogOrder()[0], backlog) == ":")
    {
      var order := BacklogOrder();
      assert order != [] ==> order[0] in backlog;
    }

    /** What the loop of `sendNeedHelpMessage` sends: the summary to every online tutor. */
    function HelpBroadcast(): seq<Send>
      reads this`online, this`backlog, set p | p in online
      requires Valid()
    {
      Deliver(GetTutors(), |GetTutors()|, Object(GetNeedHelp()))
    }

    /** What `getConnectedToTutor()` sends: each online tutor its roster. */
    function RosterSends(): seq<Send>
      reads this`online, set p | p in online
      requires Registered()
    {
      Rosters(online, |online|)
    }

    /** What `sendMessage` sends: the message to each online profile called after its sender or recipient. */
    function EchoSends(message: Msg): seq<Send>
      reads this`online, set p | p in online
      requires Registered()
    {
      if message.toProfile.None? then []
      else SendsTo(online, |online|, Named(message.toProfile, message.fromProfile), Object(message))
    }

    /** What `sendSetTutorMessage` sends: the message to each online profile called after its recipient. */
    function SetTutorSends(message: Msg): seq<Send>
      reads this`online, set p | p in online
      requires Registered()
    {
      SendsTo(online, |online|, Named(message.toProfile, message.toProfile), Object(message))
    }

    /** `sendFileMessage` dereferences both ends, by name, and the sender's buffer. */
    predicate FileReady(message: Msg)
      reads this`online, set p | p in online
    {
      message.toProfile.Some? ==>
        && message.fromProfile.Some?
        && GetUser(message.toProfile.value).Some?
        && GetUser(message.fromProfile.value).Some?
        && GetUser(message.fromProfile.value).value.buf.Some?
    }

    /**
     * What `sendFileMessage` sends: the sender's buffer and a `file` message
     * to the recipient, then both again to the sender with the message
     * re-addressed to the sender.
     */
    function FileSends(message: Msg): seq<Send>
      reads this`online, set p | p in online
      requires FileReady(message)
    {
      if message.toProfile.None? then []
      else
        var to, from := message.toProfile.value, message.fromProfile.value;
        var bytes := GetUser(from).value.buf.value;
        var m := Msg(Some("file"), message.fromProfile, message.toProfile, message.content);
        [ Send(to, Binary(bytes)), Send(to, Object(m)),
          Send(from, Binary(bytes)), Send(from, Object(m.(toProfile := message.fromProfile))) ]
    }

    /** `sendTakeMessage` can run: the taker and the profile named before the first ':' are online, and the latter is backlogged. */
    predicate TakeReady(message: Msg)
      reads this`online, this`backlog, set p | p in online
    {
      && message.content.Some?
      && HasFirstField(message.content.value, ':')
      && message.fromProfile.Some?
      && GetUser(message.fromProfile.value).Some?
      && GetUser(FirstField(message.content.value, ':')).Some?
      && GetUser(FirstField(message.content.value, ':')).value in backlog
    }

    /** The profile a `take` names: the first online one called after the content up to its first ':'. */
    function TakeTarget(message: Msg): Profile
      reads this`online, this`backlog, set p | p in online
      requires TakeReady(message)
    {
      GetUser(FirstField(message.content.value, ':')).value
    }

    /** `sendReleaseMessage` can run: the profile named by the whole content is online. */
    predicate ReleaseReady(message: Msg)
      reads this`online, set p | p in online
    {
      message.content.Some? && GetUser(message.content.value).Some?
    }

    /** The profile a `release` names. */
    function ReleaseTarget(message: Msg): Profile
      reads this`online, set p | p in online
      requires ReleaseReady(message)
    {
      GetUser(message.content.value).value
    }

    /** `sendNeedHelpMessage` dereferences a sender other than "Server" by name. */
    predicate NeedHelpReady(message: Msg)
      reads this`online, set p | p in online
    {
      && message.fromProfile.Some?
      && (message.fromProfile.value != Server ==> GetUser(message.fromProfile.value).Some?)
    }

    /** The sender of a help request is a student: neither "Server" nor a tutor. */
    predicate Asks(message: Msg)
      reads this`online, set p | p in online
      requires NeedHelpReady(message)
    {
      message.fromProfile.value != Server && !GetUser(message.fromProfile.value).value.IsTutor()
    }

    /** The backlog after a help request: a student's request appended to its list, created if absent. */
    function NeedHelpBacklog(message: Msg): Backlog
      reads this`online, this`backlog, set p | p in online
      requires NeedHelpReady(message)
    {
      if Asks(message) then
        var sender := GetUser(message.fromProfile.value).value;
        backlog[sender := (if sender in backlog then backlog[sender] else []) + [Echo(message)]]
      else backlog
    }

    /** The profile `disconnectHandler` removes: the first online one on the session. */
    function Departing(s: SessionId): (d: Profile)
      reads this`online, set p | p in online
      requires GetUserBySession(s).Some?
      ensures d in online && d.session == Some(s)
    {
      GetUserBySession(s).value
    }

    /**
     * The backlog after a disconnect: the departing profile's students
     * re-enter it with their own messages, and the departing profile leaves it.
     */
    function DisconnectBacklog(s: SessionId): Backlog
      reads this`online, this`backlog, set p | p in online
      requires Registered() && GetUserBySession(s).Some?
    {
      Requeue(backlog, online, |online|, Departing(s).username.value) - {Departing(s)}
    }

    /** The `removeTutor` notices a disconnect sends to the departing profile's students. */
    function DisconnectNotices(s: SessionId): seq<Send>
      reads this`online, set p | p in online
      requires Registered() && GetUserBySession(s).Some?
    {
      Notices(online, |online|, Departing(s).username.value)
    }

    /**
     * `disconnectHandler` runs to completion: a profile is on the session
     * (`NOTGETTINGHELP.remove` throws on the null that `getUser(session)`
     * otherwise returns), and every backlog list it leaves holds a message
     * for the summary that follows.
     */
    predicate DisconnectReady(s: SessionId)
      reads this`online, this`backlog, set p | p in online
      requires Registered()
    {
      GetUserBySession(s).Some? && Ready(DisconnectBacklog(s))
    }

    /**
     * `updateUser(user)`: a scan that changes nothing and returns the last
     * online profile, or `user` itself when that one has `user`'s username;
     * nobody when nobody is online.
     */
    method UpdateUser(user: Profile) returns (r: Option<Profile>)
      requires Registered()
      ensures r.None? <==> online == []
      ensures r.Some? ==> r.value == if online[|online| - 1].username == user.username then user else online[|online| - 1]
    {
      r := None;
      for i := 0 to |online|
        invariant r.None? <==> i == 0
        invariant r.Some? ==> r.value == if online[i - 1].username == user.username then user else online[i - 1]
      {
        var current := online[i];
        if current.username == user.username {
          current := user;
        }
        r := Some(current);
      }
    }

    /** `sendMessage`: nothing without a recipient; else one send to each online profile named by either end. */
    method SendMessage(message: Msg)
      requires Valid()
      modifies this`outbox
      ensures Valid() && unchanged(set p | p in online)
      ensures outbox == old(outbox) + EchoSends(message)
    {
      if message.toProfile.Some? {
        var c := Named(message.toProfile, message.fromProfile);
        for i := 0 to |online|
          invariant Valid()
          invariant outbox == old(outbox) + SendsTo(online, i, c, Object(message))
        {
          var user := online[i];
          if user.username == message.toProfile || user.username == message.fromProfile {
            // the profile store also records the message for this user (not modelled)
            outbox := outbox + [Send(user.username.value, Object(message))];
          }
        }
      }
    }

    /** `sendSetTutorMessage`: one send to each online profile called after the recipient. */
    method SendSetTutorMessage(message: Msg)
      requires Valid()
      modifies this`outbox
      ensures Valid() && unchanged(set p | p in online)
      ensures outbox == old(outbox) + SetTutorSends(message)
    {
      var c := Named(message.toProfile, message.toProfile);
      for i := 0 to |online|
        invariant Valid()
        invariant outbox == old(outbox) + SendsTo(online, i, c, Object(message))
      {
        var user := online[i];
        if user.username == message.toProfile {
          outbox := outbox + [Send(user.username.value, Object(message))];
        }
      }
    }

    /** `sendFileMessage`: nothing without a recipient; else four sends, and no other change. */
    method SendFileMessage(message: Msg)
      requires Valid() && FileReady(message)
      modifies this`outbox
      ensures Valid()
      ensures outbox == old(outbox) + FileSends(message)
    {
      ghost var sends := FileSends(message);
      if message.toProfile.Some? {
        var m := Msg(Some("file"), message.fromProfile, message.toProfile, message.content);
        var recipient := GetUser(message.toProfile.value).value;
        var sender := GetUser(message.fromProfile.value).value;
        outbox := outbox + [Send(recipient.username.value, Binary(sender.buf.value))];
        outbox := outbox + [Send(recipient.username.value, Object(m))];
        outbox := outbox + [Send(sender.username.value, Binary(sender.buf.value))];
        m := m.(toProfile := message.fromProfile);
        outbox := outbox + [Send(sender.username.value, Object(m))];
      }
      assert outbox == old(outbox) + sends;
    }

    /** The `connectedUsers` case of `handleMessage`: the message goes to the online profile it is addressed to. */
    method SendConnectedUsers(m: Msg)
      requires Valid() && m.toProfile.Some? && GetUser(m.toProfile.value).Some?
      modifies this`outbox
      ensures Valid() && unchanged(set p | p in online)
      ensures outbox == old(outbox) + [Send(m.toProfile.value, Object(m))]
    {
      var recipient := GetUser(m.toProfile.value).value;
      outbox := outbox + [Send(recipient.username.value, Object(m))];
    }

    /** The loop of `sendNeedHelpMessage`: the summary `m` to each of `tutors`, in order. */
    method Broadcast(tutors: seq<Profile>, m: Msg)
      requires Valid()
      requires forall p | p in tutors :: p.username.Some?
      modifies this`outbox
      ensures Valid() && unchanged(set p | p in online)
      ensures outbox == old(outbox) + Deliver(tutors, |tutors|, Object(m))
    {
      for i := 0 to |tutors|
        invariant outbox == old(outbox) + Deliver(tutors, i, Object(m))
      {
        outbox := outbox + [Send(tutors[i].username.value, Object(m))];
      }
    }

    /** The summary of the backlog to every online tutor; nothing else changes. */
    method BroadcastNeedHelp()
      requires Valid()
      modifies this`outbox
      ensures Valid() && unchanged(set p | p in online)
      ensures outbox == old(outbox) + HelpBroadcast()
    {
      ghost var sends := HelpBroadcast();
      // the summary is rebuilt for each tutor; nothing it reads changes in between
      Broadcast(GetTutors(), GetNeedHelp());
      assert HelpBroadcast() == sends;
    }

    /** What `sendNeedHelpMessage` sends before its loop: a student's request echoed back to it. */
    function HelpEcho(message: Msg): seq<Send>
      reads this`online, set p | p in online
      requires Registered() && NeedHelpReady(message)
    {
      if Asks(message) then EchoSends(Echo(message)) else []
    }

    /** The branch of `sendNeedHelpMessage` for a student: its request joins its backlog and is echoed to it. */
    method QueueRequest(message: Msg)
      requires Valid() && NeedHelpReady(message)
      modifies this`backlog, this`outbox
      ensures Valid()
      ensures backlog == old(NeedHelpBacklog(message))
      ensures outbox == old(outbox) + old(HelpEcho(message))
    {
      if Asks(message) {
        var sender := GetUser(message.fromProfile.value).value;
        var stored := if sender in backlog then backlog[sender] else [];
        var echo := Echo(message);
        backlog := backlog[sender := stored + [echo]];
        SendMessage(echo);
      }
    }

    /**
     * `sendNeedHelpMessage`: a student's request joins its backlog and is
     * echoed to it as a `message`; then every online tutor is sent the
     * backlog summary. A request from a tutor or from the server only
     * triggers the summary.
     */
    method SendNeedHelpMessage(message: Msg)
      requires Valid() && NeedHelpReady(message)
      modifies this`backlog, this`outbox
      ensures Valid()
      ensures backlog == old(NeedHelpBacklog(message))
      ensures outbox == old(outbox) + old(HelpEcho(message)) + HelpBroadcast()
    {
      QueueRequest(message);
      BroadcastNeedHelp();
    }

    /**
     * The items `getConnectedToTutor` joins for the tutor called `name`: the
     * usernames of the online profiles assigned to it, in list order.
     */
    method Tutored(name: string) returns (members: seq<string>)
      requires Registered()
      ensures members == NamesOf(online, |online|, AssignedTo(name))
    {
      members := [];
      for j := 0 to |online|
        invariant members == NamesOf(online, j, AssignedTo(name))
      {
        var user := online[j];
        if user.assignedTutor.Some? && user.assignedTutor.value == name {
          members := members + [user.username.value];
        }
      }
    }

    /** One pass of the loop of `getConnectedToTutor`: the `i`-th online profile, when a tutor, is sent its roster. */
    method SendRoster(i: nat)
      requires Valid() && i < |online|
      modifies this`outbox
      ensures Valid() && unchanged(set p | p in online)
      ensures outbox == old(outbox) + Rosters(online, i + 1)[|Rosters(online, i)|..]
    {
      var tutor := online[i];
      if tutor.IsTutor() {
        var name := tutor.username.value;
        var members := Tutored(name);
        var m := Msg(Some("connectedUsers"), Some(Server), tutor.username, Some(Join(members, ';')));
        // handleMessage(m) reaches the connectedUsers case
        SendConnectedUsers(m);
      }
    }

    /**
     * `getConnectedToTutor()`: for each online tutor, in list order, a
     * `connectedUsers` message listing the online profiles it tutors, sent
     * to that tutor.
     */
    method GetConnectedToTutor()
      requires Valid()
      modifies this`outbox
      ensures Valid() && unchanged(set p | p in online)
      ensures outbox == old(outbox) + RosterSends()
    {
      for i := 0 to |online|
        invariant Valid()
        invariant outbox == old(outbox) + Rosters(online, i)
      {
        SendRoster(i);
      }
    }

    /** Each of `msgs`, in order, to the profile called `name`; nothing else changes. */
    method ReplayTo(name: string, msgs: seq<Msg>)
      requires Valid()
      modifies this`outbox
      ensures Valid() && unchanged(set p | p in online)
      ensures outbox == old(outbox) + Replay(name, msgs)
    {
      for i := 0 to |msgs|
        invariant outbox == old(outbox) + Replay(name, msgs[..i])
      {
        ReplayStep(name, msgs, i);
        outbox := outbox + [Send(name, Object(msgs[i]))];
      }
      assert msgs[..|msgs|] == msgs;
    }

    /** The assignment loop of `sendTakeMessage`: every online profile called `name` gets `tutor` as its tutor. */
    method AssignTutor(name: Option<string>, tutor: Option<string>)
      requires Valid()
      modifies (set p | p in online)`assignedTutor
      ensures Valid()
      ensures forall p | p in online && p.username == name :: p.assignedTutor == tutor
      ensures forall p | p in online && p.username != name :: p.assignedTutor == old(p.assignedTutor)
    {
      for i := 0 to |online|
        invariant Valid()
        invariant forall j | 0 <= j < i && online[j].username == name :: online[j].assignedTutor == tutor
        invariant forall p | p in online && p.username != name :: p.assignedTutor == old(p.assignedTutor)
      {
        var user := online[i];
        if user.username == name {
          user.SetAssignedTutor(tutor);
        }
      }
    }

    /** The rosters, then `message` to the profiles called after its recipient. */
    method RostersThenSetTutor(message: Msg)
      requires Valid()
      modifies this`outbox
      ensures Valid() && unchanged(set p | p in online)
      ensures outbox == old(outbox) + RosterSends() + SetTutorSends(message)
    {
      GetConnectedToTutor();
      ghost var rosters := RosterSends();
      SendSetTutorMessage(message);
      assert RosterSends() == rosters;
    }

    /**
     * What `sendTakeMessage` sends after its state changes: the new backlog
     * summary to every tutor, the rosters, then `setTutor` to the profiles
     * called after the taken one.
     */
    method AnnounceTake(message: Msg, taken: Option<string>)
      requires Valid()
      modifies this`outbox
      ensures Valid() && unchanged(set p | p in online)
      ensures outbox == old(outbox) + HelpBroadcast() + RosterSends() + SetTutorSends(SetTutor(message, taken))
    {
      BroadcastNeedHelp();
      ghost var help := HelpBroadcast();
      RostersThenSetTutor(SetTutor(message, taken));
      assert HelpBroadcast() == help;
    }

    /** The state changes of `sendTakeMessage`: `target` leaves the backlog and every online profile with its username gets `tutor`. */
    method TakeOver(target: Profile, tutor: Option<string>)
      requires Valid()
      modifies this`backlog, (set p | p in online)`assignedTutor
      ensures Valid()
      ensures backlog == old(backlog) - {target}
      ensures forall p | p in online && p.username == target.username :: p.assignedTutor == tutor
      ensures forall p | p in online && p.username != target.username :: p.assignedTutor == old(p.assignedTutor)
    {
      backlog := backlog - {target};
      AssignTutor(target.username, tutor);
    }

    /**
     * `sendTakeMessage`: the taker is sent the backlog messages of the
     * profile named before the first ':' of the content; that profile leaves
     * the backlog; every online profile with its username gets the taker as
     * tutor; then the summary, the rosters and a `setTutor` go out.
     */
    method SendTakeMessage(message: Msg)
      requires Valid() && TakeReady(message)
      modifies this`backlog, this`outbox, (set p | p in online)`assignedTutor
      ensures Valid() && TakeDone(message)
    {
      var target := TakeTarget(message);
      var taker := GetUser(message.fromProfile.value).value;
      ReplayTo(taker.username.value, backlog[target]);
      TakeOver(target, message.fromProfile);
      AnnounceTake(message, target.username);
    }

    /** The rosters, then the backlog summary; nothing else changes. */
    method RostersThenHelp()
      requires Valid()
      modifies this`outbox
      ensures Valid() && unchanged(set p | p in online)
      ensures outbox == old(outbox) + RosterSends() + HelpBroadcast()
    {
      GetConnectedToTutor();
      ghost var rosters := RosterSends();
      BroadcastNeedHelp();
      assert RosterSends() == rosters;
    }

    /** The backlog summary, then the rosters; nothing else changes. */
    method HelpThenRosters()
      requires Valid()
      modifies this`outbox
      ensures Valid() && unchanged(set p | p in online)
      ensures outbox == old(outbox) + HelpBroadcast() + RosterSends()
    {
      BroadcastNeedHelp();
      ghost var help := HelpBroadcast();
      GetConnectedToTutor();
      assert HelpBroadcast() == help;
    }

    /**
     * `sendReleaseMessage`: the profile named by the content is marked
     * released (`""` as tutor) and told it has no tutor; its backlog is
     * replaced by a single note that the sender could not resolve the
     * issue; then the rosters and the backlog summary go out.
     */
    method SendReleaseMessage(message: Msg)
      requires Valid() && ReleaseReady(message)
      modifies this`backlog, this`outbox, ReleaseTarget(message)`assignedTutor
      ensures Valid() && ReleaseDone(message)
    {
      var user := ReleaseTarget(message);
      Release(user, ReleaseNote(message.fromProfile));
    }

    /** `sendReleaseMessage` on the profile `user` it names, with `note` as its new backlog. */
    method Release(user: Profile, note: Msg)
      requires Valid() && user in online
      modifies this`backlog, this`outbox, user`assignedTutor
      ensures Valid() && user.assignedTutor == Some("")
      ensures backlog == old(backlog)[user := [note]]
      ensures outbox == old(outbox) + SetTutorSends(RemoveTutor(user.username)) + RosterSends() + HelpBroadcast()
    {
      Unassign(user);
      ghost var notice := SetTutorSends(RemoveTutor(user.username));
      assert backlog == old(backlog) && outbox == old(outbox) + notice;
      RequeueReleased(user, note);
      assert SetTutorSends(RemoveTutor(user.username)) == notice && user.assignedTutor == Some("");
    }

    /** The start of `sendReleaseMessage`: `user` is released (`""` as tutor) and told it has no tutor. */
    method Unassign(user: Profile)
      requires Valid() && user in online
      modifies user`assignedTutor, this`outbox
      ensures Valid() && user.assignedTutor == Some("")
      ensures outbox == old(outbox) + SetTutorSends(RemoveTutor(user.username))
    {
      user.SetAssignedTutor(Some(""));
      var _ := UpdateUser(user);
      SendSetTutorMessage(RemoveTutor(user.username));
    }

    /** The end of `sendReleaseMessage`: `note` becomes the only backlog message of `user`; the rosters and the summary go out. */
    method RequeueReleased(user: Profile, note: Msg)
      requires Valid() && user in online
      modifies this`backlog, this`outbox
      ensures Valid() && unchanged(set p | p in online)
      ensures backlog == old(backlog)[user := [note]]
      ensures outbox == old(outbox) + RosterSends() + HelpBroadcast()
    {
      backlog := backlog[user := [note]];
      RostersThenHelp();
    }

    /**
     * `addUser`: the profile joins the online list, is sent each of its
     * stored messages, and every tutor is sent the backlog summary.
     */
    method AddUser(dbUser: Profile)
      requires Valid()
      requires dbUser.username.Some? && dbUser.messages.Some? && dbUser.tutor.Some?
      requires dbUser.IsTutor() ==> dbUser.username != Some(Server)
      modifies this`online, this`outbox
      ensures Valid()
      ensures online == old(online) + [dbUser]
      ensures outbox == old(outbox) + Replay(dbUser.username.value, dbUser.messages.value) + HelpBroadcast()
    {
      online := online + [dbUser];
      ReplayTo(dbUser.username.value, dbUser.messages.value);
      // the push notification a tutor's arrival triggers is not modelled
      BroadcastNeedHelp();
    }

    /**
     * The loop of `disconnectHandler`: every online profile tutored by
     * `name` loses its tutor, re-enters the backlog with its own messages
     * and is sent `removeTutor`.
     */
    method ReleaseStudents(name: string)
      requires Registered() && forall p | p in backlog :: p in online
      modifies this`backlog, this`outbox, (set p | p in online)`assignedTutor
      ensures Registered() && forall p | p in backlog :: p in online
      ensures backlog == old(Requeue(backlog, online, |online|, name))
      ensures outbox == old(outbox) + old(Notices(online, |online|, name))
      ensures forall p | p in online :: p.assignedTutor == if old(p.assignedTutor) == Some(name) then None else old(p.assignedTutor)
    {
      for i := 0 to |online|
        invariant Registered() && forall p | p in backlog :: p in online
        invariant backlog == old(Requeue(backlog, online, i, name))
        invariant outbox == old(outbox) + old(Notices(online, i, name))
        invariant forall p | p in online ::
          p.assignedTutor == if old(p.assignedTutor) == Some(name) && p in online[..i] then None else old(p.assignedTutor)
      {
        ReleaseStep(i, name);
      }
      assert online[..|online|] == online;
    }

    /** One pass of the loop of `disconnectHandler`, on the `i`-th online profile. */
    method ReleaseStep(i: nat, name: string)
      requires Registered() && (forall p | p in backlog :: p in online) && i < |online|
      modifies this`backlog, this`outbox, {online[i]}`assignedTutor
      ensures Registered() && forall p | p in backlog :: p in online
      ensures var p := online[i];
        if old(p.assignedTutor) == Some(name) then
          && p.assignedTutor.None?
          && backlog == old(backlog)[p := p.messages.value]
          && outbox == old(outbox) + [Notice(p)]
        else
          p.assignedTutor == old(p.assignedTutor) && backlog == old(backlog) && outbox == old(outbox)
    {
      var profile := online[i];
      if profile.assignedTutor == Some(name) {
        profile.SetAssignedTutor(None);
        backlog := backlog[profile := profile.messages.value];
        outbox := outbox + [Notice(profile)];
      }
    }

    /**
     * `disconnectHandler`: the students of the profile on the session lose
     * their tutor and re-enter the backlog; the profile leaves the backlog
     * and the online list (first occurrence); then the backlog summary and
     * the rosters go out.
     */
    method DisconnectHandler(s: SessionId)
      requires Valid() && DisconnectReady(s)
      modifies this`online, this`backlog, this`outbox, (set p | p in online)`assignedTutor
      ensures Valid() && Departed(s)
      ensures Cleared(old(online), old(Departing(s).username))
      ensures outbox == old(outbox) + old(DisconnectNotices(s)) + HelpBroadcast() + RosterSends()
    {
      Depart(s);
      HelpThenRosters();
    }

    /** The loop and the removals of `disconnectHandler`. */
    method Depart(s: SessionId)
      requires Valid() && DisconnectReady(s)
      modifies this`online, this`backlog, this`outbox, (set p | p in online)`assignedTutor
      ensures Valid() && Departed(s)
      ensures Cleared(old(online), old(Departing(s).username))
      ensures outbox == old(outbox) + old(DisconnectNotices(s))
    {
      var d := Departing(s);
      // getUser(session) is looked up again on every pass; nothing it reads changes
      ReleaseStudents(d.username.value);
      Leave(d);
    }

    /** The removals of `disconnectHandler`: `d` leaves the backlog and its first place in the online list. */
    method Leave(d: Profile)
      requires Registered() && (forall p | p in backlog :: p in online) && Ready(backlog - {d})
      modifies this`online, this`backlog
      ensures Valid()
      ensures online == RemoveFirst(old(online), d) && backlog == old(backlog) - {d}
    {
      backlog := backlog - {d};
      online := RemoveFirst(online, d);
    }

    /** The handlers `handleMessage` runs for `message`: those of the `switch` with a `break` after every case. */
    function Routes(message: Msg): seq<Dispatch.Route>
      requires message.command.Some?
    {
      Dispatch.Switch(Dispatch.Intended, message.command.value)
    }

    /** `handleMessage` can run the handler its command selects without dereferencing null. */
    predicate Dispatchable(message: Msg)
      reads this`online, this`backlog, set p | p in online
    {
      && message.command.Some?
      && (Routes(message) == [Dispatch.File] ==> FileReady(message))
      && (Routes(message) == [Dispatch.Take] ==> TakeReady(message))
      && (Routes(message) == [Dispatch.Roster] ==> message.toProfile.Some? && GetUser(message.toProfile.value).Some?)
      && (Routes(message) == [Dispatch.Release] ==> ReleaseReady(message))
      && (Routes(message) == [Dispatch.NeedHelp] ==> NeedHelpReady(message))
    }

    /**
     * `handleMessage`: the handler the command selects runs, with the state
     * changes and sends that handler makes; a command without a case, and
     * `webNoti` (whose effect is on the profile store alone), change nothing.
     */
    method HandleMessage(message: Msg)
      requires Valid() && Dispatchable(message)
      modifies this`backlog, this`outbox, (set p | p in online)`assignedTutor
      ensures Valid() && online == old(online)
      ensures Routes(message) in {[], [Dispatch.WebNoti]} ==>
        backlog == old(backlog) && outbox == old(outbox) && unchanged(set p | p in online)
      ensures Routes(message) == [Dispatch.Chat] ==>
        backlog == old(backlog) && outbox == old(outbox) + old(EchoSends(message)) && unchanged(set p | p in online)
      ensures Routes(message) == [Dispatch.File] ==>
        backlog == old(backlog) && outbox == old(outbox) + old(FileSends(message)) && unchanged(set p | p in online)
      ensures Routes(message) == [Dispatch.AssignNotice] ==>
        backlog == old(backlog) && outbox == old(outbox) + old(SetTutorSends(message)) && unchanged(set p | p in online)
      ensures Routes(message) == [Dispatch.Roster] ==>
        backlog == old(backlog) && outbox == old(outbox) + [Send(message.toProfile.value, Object(message))]
        && unchanged(set p | p in online)
      ensures Routes(message) == [Dispatch.NeedHelp] ==>
        backlog == old(NeedHelpBacklog(message)) && outbox == old(outbox) + old(HelpEcho(message)) + HelpBroadcast()
        && unchanged(set p | p in online)
      ensures Routes(message) == [Dispatch.Take] ==> TakeDone(message)
      ensures Routes(message) == [Dispatch.Release] ==> ReleaseDone(message)
    {
      var routes := Routes(message);
      if routes == [Dispatch.Take] || routes == [Dispatch.Release] {
        HandleAssignment(message);
      } else if routes == [Dispatch.NeedHelp] {
        assert NeedHelpReady(message);
        SendNeedHelpMessage(message);
      } else {
        HandleSend(message);
      }
    }

    /**
     * The online list and the backlog after a disconnect relative to the
     * state before it: the departing profile leaves both, its students are
     * requeued, and nobody left online is assigned to it.
     */
    twostate predicate Departed(s: SessionId)
      reads this`online, this`backlog, set p | p in online
      requires old(Valid() && DisconnectReady(s))
    {
      && online == RemoveFirst(old(online), old(Departing(s)))
      && backlog == old(DisconnectBacklog(s))
      && (forall p | p in online :: p.assignedTutor != old(Departing(s).username))
    }

    /** Every profile of `was` assigned to `name` before now has no tutor, and every other one keeps its own. */
    twostate predicate Cleared(was: seq<Profile>, name: Option<string>)
      reads (set p | p in was)`assignedTutor
    {
      forall p | p in was :: p.assignedTutor == if old(p.assignedTutor) == name then None else old(p.assignedTutor)
    }

    /**
     * The state after a `take` relative to the state before it: what
     * `sendTakeMessage` promises.
     */
    twostate predicate TakeDone(message: Msg)
      reads this, set p | p in online
      requires old(Valid() && TakeReady(message)) && Valid()
    {
      && online == old(online)
      && backlog == old(backlog) - {old(TakeTarget(message))}
      && (forall p | p in online && p.username == old(TakeTarget(message).username) :: p.assignedTutor == message.fromProfile)
      && (forall p | p in online && p.username != old(TakeTarget(message).username) :: p.assignedTutor == old(p.assignedTutor))
      && outbox == old(outbox) + old(Replay(message.fromProfile.value, backlog[TakeTarget(message)]))
        + HelpBroadcast() + RosterSends() + SetTutorSends(SetTutor(message, old(TakeTarget(message).username)))
    }

    /**
     * The state after a `release` relative to the state before it: what
     * `sendReleaseMessage` promises, and no other profile's tutor changes.
     */
    twostate predicate ReleaseDone(message: Msg)
      reads this, set p | p in online
      requires old(Valid() && ReleaseReady(message)) && Valid()
    {
      && online == old(online)
      && old(ReleaseTarget(message)).assignedTutor == Some("")
      && (forall p | p in online && p != old(ReleaseTarget(message)) :: p.assignedTutor == old(p.assignedTutor))
      && backlog == old(backlog)[old(ReleaseTarget(message)) := [ReleaseNote(message.fromProfile)]]
      && outbox == old(outbox) + SetTutorSends(RemoveTutor(old(ReleaseTarget(message)).username)) + RosterSends() + HelpBroadcast()
    }

    /** The cases of `handleMessage` that change tutor assignments. */
    method HandleAssignment(message: Msg)
      requires Valid() && Dispatchable(message)
      requires Routes(message) == [Dispatch.Take] || Routes(message) == [Dispatch.Release]
      modifies this`backlog, this`outbox, (set p | p in online)`assignedTutor
      ensures Valid()
      ensures Routes(message) == [Dispatch.Take] ==> TakeDone(message)
      ensures Routes(message) == [Dispatch.Release] ==> ReleaseDone(message)
    {
      if Routes(message) == [Dispatch.Take] {
        SendTakeMessage(message);
      } else {
        SendReleaseMessage(message);
      }
    }

    /** The cases of `handleMessage` that only send: they change neither the backlog nor any profile. */
    method HandleSend(message: Msg)
      requires Valid() && Dispatchable(message)
      requires Routes(message) !in {[Dispatch.Take], [Dispatch.Release], [Dispatch.NeedHelp]}
      modifies this`outbox
      ensures Valid() && unchanged(set p | p in online)
      ensures Routes(message) in {[], [Dispatch.WebNoti]} ==> outbox == old(outbox)
      ensures Routes(message) == [Dispatch.Chat] ==> outbox == old(outbox) + old(EchoSends(message))
      ensures Routes(message) == [Dispatch.File] ==> outbox == old(outbox) + old(FileSends(message))
      ensures Routes(message) == [Dispatch.AssignNotice] ==> outbox == old(outbox) + old(SetTutorSends(message))
      ensures Routes(message) == [Dispatch.Roster] ==> outbox == old(outbox) + [Send(message.toProfile.value, Object(message))]
    {
      var routes := Routes(message);
      if routes == [Dispatch.Chat] {
        SendMessage(message);
      } else if routes == [Dispatch.File] {
        SendFileMessage(message);
      } else if routes == [Dispatch.AssignNotice] {
        SendSetTutorMessage(message);
      } else if routes == [Dispatch.Roster] {
        SendConnectedUsers(message);
      }
      // `webNoti` stores the content as the sender's push token in the profile store, which is not modelled
    }
  }
}

=== FILE: strings.dfy ===
/**
 * The string operations the message handler relies on: `StringJoiner`
 * (joining with a separator), the first field of `String.split`, and Java's
 * conversion of a possibly-null string in a concatenation.
 */
module Strings {
  import opened Wrappers

  /** What `StringJoiner(sep)` yields after `add(items[0])`, ..., `add(items[n-1])`. */
  function Join(items: seq<string>, sep: char): string
  {
    if |items| == 0 then ""
    else if |items| == 1 then items[0]
    else items[0] + [sep] + Join(items[1..], sep)
  }

  /**
   * The reference reading of a joined string: the pieces between separators,
   * empty pieces kept. It is the inverse of `Join` (see `SplitJoin`).
   */
  function Split(s: string, sep: char): (parts: seq<string>)
    ensures |parts| > 0
    decreases |s|
  {
    if s == [] then [[]]
    else
      var rest := Split(s[1..], sep);
      if s[0] == sep then [[]] + rest
      else [[s[0]] + rest[0]] + rest[1..]
  }

  /** `"" + o` in Java: a null string is written as `null`. */
  function JavaString(o: Option<string>): string
  {
    match o
    case Some(s) => s
    case None => "null"
  }

  /** The text in front of the first `sep`, or all of `s` when it holds none. */
  function FirstField(s: string, sep: char): (r: string)
    ensures |r| <= |s| && r == s[..|r|]
    ensures sep !in r
    ensures |r| < |s| ==> s[|r|] == sep
  {
    if s == [] || s[0] == sep then []
    else [s[0]] + FirstField(s[1..], sep)
  }

  /**
   * Whether `s.split(sep)` has an element 0. Java drops trailing empty
   * strings, so a non-empty `s` made of separators only splits into an
   * empty array; the empty string splits into `[""]`.
   */
  predicate HasFirstField(s: string, sep: char)
  {
    s == [] || exists i | 0 <= i < |s| :: s[i] != sep
  }

  /** `FirstField` is the first piece of the split. */
  lemma {:induction false} FirstFieldIsSplitHead(s: string, sep: char)
    ensures Split(s, sep)[0] == FirstField(s, sep)
    decreases |s|
  {
    if s != [] && s[0] != sep {
      FirstFieldIsSplitHead(s[1..], sep);
    }
  }

  /** A string without separators is one piece. */
  lemma {:induction false} SplitNoSeparator(s: string, sep: char)
    requires sep !in s
    ensures Split(s, sep) == [s]
    decreases |s|
  {
    if s != [] {
      assert s[0] in s;
      SplitNoSeparator(s[1..], sep);
      assert [s[0]] + s[1..] == s;
    }
  }

  /** Splitting peels off a leading piece that holds no separator. */
  lemma {:induction false} SplitAfterPiece(a: string, sep: char, t: string)
    requires sep !in a
    ensures Split(a + [sep] + t, sep) == [a] + Split(t, sep)
    decreases |a|
  {
    if a == [] {
      assert (a + [sep] + t)[1..] == t;
    } else {
      assert (a + [sep] + t)[1..] == a[1..] + [sep] + t;
      SplitAfterPiece(a[1..], sep, t);
      assert [a[0]] + a[1..] == a;
    }
  }

  /** Joining pieces free of the separator can be undone by splitting. */
  lemma {:induction false} SplitJoin(items: seq<string>, sep: char)
    requires |items| > 0
    requires forall i | 0 <= i < |items| :: sep !in items[i]
    ensures Split(Join(items, sep), sep) == items
    decreases |items|
  {
    if |items| == 1 {
      SplitNoSeparator(items[0], sep);
    } else {
      SplitJoin(items[1..], sep);
      SplitAfterPiece(items[0], sep, Join(items[1..], sep));
    }
  }

  /** A joined string is at least as long as its first two items and the separator between them. */
  lemma JoinLength(items: seq<string>, sep: char)
    ensures |items| >= 2 ==> |Join(items, sep)| >= |items[0]| + 1 + |items[1]|
  {
    if |items| >= 2 {
      var rest := items[1..];
      assert rest[0] == items[1];
      assert |rest| == 1 || Join(rest, sep) == rest[0] + [sep] + Join(rest[1..], sep);
    }
  }
}

=== FILE: wrappers.dfy ===
/** The Option type that stands for Java's nullable references throughout the model. */
module Wrappers {

  /** `None` is Java's `null`; `Some(v)` is a non-null reference to `v`. */
  datatype Option<+T> = None | Some(value: T)
}
